=== FILE: README.md ===
# Autoresponder and DIY record store, modelled in Dafny

This project models two pieces of a mesh-radio firmware's optional
autoresponder feature.

The first is the **autoresponder state machine** of `AutoresponderModule`. It
replies to direct messages (DMs) and to messages heard on the primary channel.
A chain of guards decides whether a reply goes out: the mode is enabled, the
sender is not this node, the message is on the primary channel, the daily cap
and the cooldown allow it, the sender is not in a dedup set, and the sender is
on the allow-list. Once a reply is acknowledged, its recipient joins the dedup
set of its context (DM or channel). A periodic tick clears those sets, resets
the daily counter and applies time-based expiry. A persisted boot counter acts
as a circuit breaker against reboot loops. The allow-list is set from a text
of hex node ids.

The second is the **integrity-checked record store** of `DIYModule`
(`loadData<T>` / `saveData<T>`). A fixed-size record is stored as
`[record bytes][4-byte hash]`. A hash mismatch yields a default-constructed
record. A save writes a `.tmp` sibling first, then removes the target and
renames the staging file into place.

Everything is pure functions over immutable records. The clock (`now`), the id
the router gives an outgoing packet, the primary channel's name and the success
of each filesystem call are inputs. `getDataHash` is a function parameter that
the model assumes nothing about.

| file | module | models |
|---|---|---|
| types.dfy | `Types` | `uint32_t`, bytes, wrap-around subtraction and multiplication |
| store.dfy | `Store` | `DIYModule.h`: paths, hash field, `loadData`, `saveData` |
| node_ids.dfy | `NodeIds` | the hex parser of `setPermittedNodes` |
| autoresponder.dfy | `Autoresponder` | config and state records, `wantPacket`, `handleReceived`, `handleDM`, `handleChannel`, `checkForAck`, `isNodePermitted`, the clear tasks |
| settings.dfy | `Settings` | the `set*` setters, `bootCounting`, the constructor |
| scheduler.dfy | `Scheduler` | `runOnce` and its intervals and expiries |
| properties.dfy | `Properties` | event traces, the invariant, scenario lemmas |

## Behaviour that differs from the source's own comments

The model follows the code. In these places the code does something other
than what its comments say.

- **Daily cap.** cpp:13 gives `maxResponsesChannelDaily = 10` the comment "Max
  responses per day", but the test at cpp:407 is `responsesInChannelToday > 10`.
  So 11 channel replies pass per counting window. A window runs from one daily
  reset in `runOnce`, or one restart, to the next of either, across any number
  of ticks in between. A restart starts a new window because the counter lives
  only in RAM (AutoresponderModule.h:57)
  (`Properties.ChannelRepliesPerWindow`, `Properties.EleventhChannelReplyPasses`).
- **Counting window.** cpp:406 speaks of "the past 24 hours" and cpp:597 of
  "daily limits", but cpp:570 sets the interval to `MS_IN_MINUTE * 24`, which
  is 24 minutes. The settings named in hours (the limits
  `minRepeatPubChanHours`, `minRepeatPrivChanHours` and
  `maxExpirationChannelHours` at cpp:22-24, and the fields `repeat_hours` and
  `expiration_hours` at cpp:31-32) are likewise multiplied by `MS_IN_MINUTE` at
  cpp:571-572 and cpp:615-622. The model keeps
  that arithmetic.
- **Boot breaker.** cpp:14 comments `expireAfterBootNum = 5` as "How many boots
  before response auto-disabled", but cpp:529 counts while the counter is below
  5 and trips only on the next boot, which is the sixth counted boot
  (`Settings.BreakerTripsOnSixthBoot`).
- **Counting since enablement.** The warning at cpp:541 reads "Booted ... times
  since module enabled", but enabling (cpp:269-295) does not zero the boot
  counter. Only `setMessage`, `setPermittedNodes`, the breaker itself and the
  two expiries zero it.
- **Latest reply only.** AutoresponderModule.h:50-51 keep the id and
  recipient of the "latest" reply. Neither handler checks `waitingForAck`
  before replying, so a second reply overwrites both fields, and only the latest
  id's ack is accepted (`Properties.SecondReplySupersedesFirst`).
- **Channel change.** cpp:432 says a channel change should "reset the timer and
  clear the list of seen nodes". The clear comes after the dedup test
  (cpp:421), and no timer is reset (`Properties.ChannelChangeClearComesLate`).
- **Expiry timing.** cpp:604 and cpp:620 describe a time limit on responses.
  The test is the absolute `now > hours * MS_IN_MINUTE` on the time since boot
  (cpp:615, cpp:622), so it is measured from the last boot and not from when
  the setting was made. An `expiration_hours` of 0 means 72 for the channel but
  "never" for DMs.

Other behaviour of the code that the model keeps:

- **Cooldown sentinel.** The cooldown treats `prevInChannelResponseMs == 0` as
  "no previous reply" (cpp:415). A reply sent when the clock reads 0 therefore
  disables the next cooldown (`Properties.ReplyAtZeroSkipsCooldown`).
- **Feedback format.** The list of permitted nodes sent back to the phone
  prints each id with `"!%0x"` (AutoresponderModule.cpp:256), without zero
  padding. An id below 0x1000_0000 is printed with fewer than 8 digits, and
  that list does not parse back. The round trip `NodeIds.FormatParseRoundTrip`
  is stated for zero-padded ids.
- **Short files.** `loadData` reads with `readBytes` into the existing record.
  A file shorter than the record leaves the old bytes in the tail, and the hash
  is checked over that mixture (`Store.Overlay`, `Store.StoredHash`).

## Model

| member | source | states |
|---|---|---|
| `Types.Sub32` | src/modules/AutoresponderModule.cpp:581 | unsigned `now - prev` is the difference when no wrap happened, and the difference plus 2^32 when it did |
| `Types.Mul32` | src/modules/AutoresponderModule.cpp:571-572 | a `uint32_t` product equals the true product when it fits, and otherwise the true product less a multiple of 2^32 |
| `Types.ElapsedAcrossWrap` | src/modules/AutoresponderModule.cpp:576-601 | elapsed time measured by unsigned subtraction is exact even when the clock wrapped in between |
| `Store.StagingNeverCollides` | src/mesh/DIYModule.h:98-110 | a `.tmp` staging path is never any module's data path |
| `Store.DataPathInjective` | src/mesh/DIYModule.h:49-52 | modules with different names never share a data file |
| `Store.DecodeEncodeLe32` | src/mesh/DIYModule.h:120-123 | the 4-byte hash field written by a save reads back as the same hash value |
| `Store.EncodeLe32Injective` | src/mesh/DIYModule.h:73-79 | different hash values are stored as different bytes |
| `Store.Overlay` | src/mesh/DIYModule.h:71 | `readBytes` copies what the file has over the front of the record and leaves the rest of the record as it was |
| `Store.StoredHash` | src/mesh/DIYModule.h:74-75 | a complete hash field is read as the value written, bytes after it are ignored, and a file that ends with the record leaves the hash 0 |
| `Store.EnsureDirectory` | src/mesh/DIYModule.h:105-106 | the save directory exists afterwards and no file changes |
| `Store.LoadData` | src/mesh/DIYModule.h:46-93 | a missing or unopenable file leaves the record unchanged; a hash mismatch yields the default record; otherwise the result is the bytes read and their hash equals the stored hash |
| `Store.SaveSteps` | src/mesh/DIYModule.h:95-134 | a save passes through one state when the staging file cannot be opened, and otherwise three or four: the directory exists; the staging path holds the complete file and nothing else changed; the data path is deleted iff it existed and the removal succeeded; the fourth state exists iff the rename succeeds, with the staged file moved to the data path |
| `Store.SaveData` | src/mesh/DIYModule.h:95-151 | if the staging file cannot be opened, no file changes; on success the target holds the record followed by its hash, the staging path is gone and every other path is unchanged; if the rename fails, the new file stays at the staging path, the old record is gone unless its removal failed, and every other path is unchanged |
| `Store.SaveLoadRoundTrip` | src/mesh/DIYModule.h:46-126 | a successful save followed by a load returns the saved record byte for byte |
| `Store.TamperedRecordRejected` | src/mesh/DIYModule.h:77-82 | record bytes replaced by bytes with a different hash load as the default record, never as the tampered bytes |
| `Store.TamperedHashRejected` | src/mesh/DIYModule.h:73-82 | a stored hash that differs from the record's hash makes the load return the default record |
| `Store.SaveNeverExposesPartialFile` | src/mesh/DIYModule.h:113-134 | at every step of a save, the data path holds the old content, the complete new file, or nothing |
| `NodeIds.DigitChar` | src/modules/AutoresponderModule.cpp:211-214 | every lower-case digit the formatter emits is accepted by the parser and has the intended value |
| `NodeIds.HexFold` | src/modules/AutoresponderModule.cpp:221 | a numeral of k hex digits has a value below 16^k, so 8 digits fit a `uint32_t` |
| `NodeIds.HexChars` | src/modules/AutoresponderModule.cpp:211-217 | the digits kept from the input are all hex digits, and there are no more of them than input characters |
| `NodeIds.Chunks` | src/modules/AutoresponderModule.cpp:219-228 | n accepted digits give exactly n / 8 ids, so a trailing partial group is dropped |
| `NodeIds.ScanCollectsGroups` | src/modules/AutoresponderModule.cpp:208-237 | the scanning loop stores the ids found so far, then the complete 8-digit groups of the rest of the input, cut off at the capacity where the loop stops |
| `NodeIds.ParseNodeIds` | src/modules/AutoresponderModule.cpp:199-241 | the corrected parser stores the first 8 complete hex groups of the input, in order, and never more than 8 |
| `NodeIds.ParseAsWritten` | src/modules/AutoresponderModule.cpp:199-237 | on text shorter than 256 characters the loop as written stores the first 9 complete hex groups; on longer text it never ends if the first 256 characters hold no hex digit, and otherwise stores the first 9 groups of those 256 characters read over and over |
| `NodeIds.ScanPastCap` | src/modules/AutoresponderModule.cpp:231-233 | once the loop has stored as many ids as it allows, further input changes nothing |
| `NodeIds.WrappedScanFillsUp` | src/modules/AutoresponderModule.cpp:205-237 | 72 passes over text holding a hex digit give the wrapped loop its 9 ids |
| `NodeIds.WrappedScanSettles` | src/modules/AutoresponderModule.cpp:205-237 | any number of passes beyond 72 stores the same ids, so 72 passes stand for the unbounded wrapped loop |
| `NodeIds.ParseAgreesWithinCapacity` | src/modules/AutoresponderModule.cpp:199-237 | with at most 8 complete groups, the corrected loop stores all of them, and the loop as written stores the same exactly when the text is shorter than 256 characters |
| `NodeIds.NinthGroupOverflows` | src/modules/AutoresponderModule.cpp:220-233 | with 9 or more groups, the loop as written, whenever it ends, stores 9 ids into the 8-slot array, and it does end on text shorter than 256 characters |
| `NodeIds.WrappedIndexHangs` | src/modules/AutoresponderModule.cpp:205-237 | text of 256 or more characters whose first 256 hold no hex digit never leaves the loop as written |
| `NodeIds.FormatParseRoundTrip` | src/modules/AutoresponderModule.cpp:199-237 | any list of up to 8 ids written as zero-padded hex parses back to the same list |
| `NodeIds.ParseIgnoresCase` | src/modules/AutoresponderModule.cpp:211 | upper-case hex digits parse exactly like lower-case ones |
| `Autoresponder.ListedFrom` | src/modules/AutoresponderModule.cpp:503-506 | the loop finds the node iff some entry from index i on equals it |
| `Autoresponder.IsNodePermitted` | src/modules/AutoresponderModule.cpp:496-510 | an empty allow-list admits every node; a non-empty one admits exactly the listed nodes |
| `Autoresponder.HandleDM` | src/modules/AutoresponderModule.cpp:361-389 | a DM reply goes out iff DMs are enabled, the sender is not this node, the sender is not in the DM dedup set and the sender is permitted; it then records the new id, the sender, `waitingForAck` and the DM context; otherwise nothing changes |
| `Autoresponder.HandleChannel` | src/modules/AutoresponderModule.cpp:392-448 | a broadcast reply goes out iff channel replies are on, the message is on channel 0 from another node, the counter is at most 10, no cooldown is running, the sender is not in the channel dedup set and the sender is permitted; it then increments the counter, records the time, the new id, the sender and the channel context, and caches the channel name, emptying the dedup set if the name changed; otherwise nothing changes |
| `Autoresponder.CheckForAck` | src/modules/AutoresponderModule.cpp:451-474 | only a successful ack of the latest outgoing id changes state: it clears `waitingForAck` and adds the recipient to the dedup set of the reply's context, and nothing else changes |
| `Autoresponder.HandleReceived` | src/modules/AutoresponderModule.cpp:96-114 | text to this node is handled as a DM, other text as a channel message, routing packets as acks, anything else is ignored |
| `Autoresponder.WantPacket` | src/modules/AutoresponderModule.cpp:78-93 | nothing is wanted while both modes are off; otherwise every text message is wanted, and routing packets exactly while a reply awaits its ack |
| `Autoresponder.ClearHeardInDM` | src/modules/AutoresponderModule.cpp:631-635 | the DM dedup set becomes empty and nothing else changes |
| `Autoresponder.ClearHeardInChannel` | src/modules/AutoresponderModule.cpp:638-642 | the channel dedup set becomes empty and nothing else changes |
| `Autoresponder.HandleDailyTasks` | src/modules/AutoresponderModule.cpp:645-650 | the daily counter becomes 0 and nothing else changes |
| `Settings.ApplyCommand` | src/modules/AutoresponderModule.cpp:184-341 | every setter saves except `setMessage` with empty text; only `setMessage` and `setPermittedNodes` zero the boot counter; every setter except those two and `setEnabled(false)` requests a restart; the allow-list becomes the first 8 hex groups of the input |
| `Settings.BootCounting` | src/modules/AutoresponderModule.cpp:520-550 | nothing happens unless channel replies are on or DM replies are on and set to expire; below 5 the counter goes up by one; at 5 or more, channel replies go off, DM replies go off iff they expire, and the counter returns to 0; a counter at most 5 stays at most 5 |
| `Settings.BootsBelowThreshold` | src/modules/AutoresponderModule.cpp:529-537 | from a zero counter with channel replies on, the first five boots only count |
| `Settings.BreakerTripsOnSixthBoot` | src/modules/AutoresponderModule.cpp:529-549 | the fifth boot still leaves channel replies on; the sixth switches them off, switches DM replies off iff they expire, and zeroes the counter |
| `Settings.Start` | src/modules/AutoresponderModule.cpp:42-75 | a new module waits for no ack, has zero counters and timestamps and empty dedup sets; if enabled it counts the boot and caches the primary channel's name, otherwise the loaded configuration is kept and the cached name is empty |
| `Scheduler.ClearChannelIntervalAsWritten` | src/modules/AutoresponderModule.cpp:571-572 | the source's 32-bit interval is the corrected interval reduced modulo 2^32 |
| `Scheduler.ClearChannelInterval` | src/modules/AutoresponderModule.cpp:571-572 | the channel-clear interval is never below the floor (8 × MS_IN_MINUTE public, 4 × private) nor below the user's setting, and equals one of the two |
| `Scheduler.ClearChannelIntervalAgrees` | src/modules/AutoresponderModule.cpp:571-572 | the source's 32-bit interval equals the corrected one for every `repeat_hours` up to 71582 |
| `Scheduler.ChannelFloorUndercutAsWritten` | src/modules/AutoresponderModule.cpp:571-572 | with `repeat_hours = 71583` the source's 32-bit interval is 12704 ms, below the public floor |
| `Scheduler.UndercutClearsEveryTick` | src/modules/AutoresponderModule.cpp:589-627 | with that wrapped interval, a channel clear is due again one `runOnce` period (60 s) after the last, from any clock reading; under the corrected interval it is not |
| `Scheduler.EffectiveExpirationHours` | src/modules/AutoresponderModule.cpp:607-612 | the channel expiry is `expiration_hours` when it lies in (0, 72), and 72 otherwise |
| `Scheduler.HandleExpiredChannel` | src/modules/AutoresponderModule.cpp:653-659 | channel replies go off, the boot counter becomes 0, nothing else changes |
| `Scheduler.HandleExpiredDM` | src/modules/AutoresponderModule.cpp:662-668 | DM replies go off, the boot counter becomes 0, nothing else changes |
| `Scheduler.PeriodicTasks` | src/modules/AutoresponderModule.cpp:578-601 | the DM and channel clears each fire exactly when their mode is on and strictly more than their interval has elapsed, and the daily reset fires whenever strictly more than its interval has elapsed, whatever the modes; a task that fires empties its set or resets the counter and sets its timestamp to `now`; nothing else changes |
| `Scheduler.Expiries` | src/modules/AutoresponderModule.cpp:603-624 | channel replies go off iff on and `now` is past the effective expiry; DM replies go off iff on, set to expire, with a non-zero setting and `now` past its 32-bit deadline; the boot counter is zeroed iff either fired; nothing else changes |
| `Scheduler.RunOnce` | src/modules/AutoresponderModule.cpp:561-628 | a tick combines the periodic tasks, which see the configuration before any expiry, with the expiries; it asks to be called again after 60 s |
| `Properties.Next` | src/modules/AutoresponderModule.cpp:77-114 | a packet `wantPacket` accepts goes to `handleReceived` and a refused one changes nothing; a tick is `runOnce`, a command is its setter and a restart is the constructor on the saved configuration, none of them replying; only a received text message can produce a reply |
| `Properties.StartEstablishesInv` | src/modules/AutoresponderModule.cpp:42-75 | a module started from a configuration within bounds satisfies the invariant |
| `Properties.FirstBootIsIdle` | src/modules/AutoresponderModule.cpp:27-49 | with no saved file the configuration keeps its member initialisers, both modes are off, the constructor neither counts the boot nor saves, and the start state satisfies the invariant |
| `Properties.StepKeepsInv` | src/modules/AutoresponderModule.cpp:42-628 | every event (packet, tick, setter, restart) keeps the invariant (counter at most 11, boot counter at most 5, at most 8 permitted nodes, message fits); apart from a due daily reset or a restart the daily counter moves exactly when a channel reply goes out, by one |
| `Properties.RunKeepsInv` | src/modules/AutoresponderModule.cpp:42-628 | every sequence of packets, ticks, setters and restarts keeps the invariant |
| `Properties.ChannelRepliesPerWindow` | src/modules/AutoresponderModule.cpp:406-410 | over any run of packets, ticks and commands with no daily reset and no restart in it, every channel reply is counted, so at most 11 channel replies go out per counting window |
| `Properties.EleventhChannelReplyPasses` | src/modules/AutoresponderModule.cpp:406-410 | a counter of exactly 10 still lets a reply through; the next one is refused |
| `Properties.DmDedupUntilCleared` | src/modules/AutoresponderModule.cpp:371-375 | after an acknowledged DM reply, the same sender gets no reply until the DM set is cleared, and after the clear it gets one |
| `Properties.ChannelDedupUntilCleared` | src/modules/AutoresponderModule.cpp:420-424 | after an acknowledged channel reply, the same sender gets no reply; after a clear, past the cooldown and under the cap, it gets one again |
| `Properties.UnackedReplyDoesNotSuppress` | src/modules/AutoresponderModule.cpp:463-471 | a reply that is never acknowledged does not add its recipient to a dedup set |
| `Properties.ClockClearsChannelDedup` | src/modules/AutoresponderModule.cpp:589-594 | a due channel clear in a tick empties the channel dedup set and records the time |
| `Properties.CooldownBlocksSecondReply` | src/modules/AutoresponderModule.cpp:412-418 | two channel messages less than 2 × MS_IN_MINUTE apart get one reply, even across a clock wrap |
| `Properties.ReplyAtZeroSkipsCooldown` | src/modules/AutoresponderModule.cpp:415 | a reply sent when the clock reads 0 records the "no previous reply" sentinel, so the next message is answered at once |
| `Properties.SecondReplySupersedesFirst` | src/modules/AutoresponderModule.cpp:383-388 | while one DM reply awaits its ack, another sender is answered too; the first reply's record is overwritten and its ack is ignored |
| `Properties.RepeatedAckIgnored` | src/modules/AutoresponderModule.cpp:88-89 | after an acknowledged DM reply, a second copy of the ack is refused by `wantPacket` and does not undo a DM clear, although `handleReceived` alone would re-add the sender |
| `Properties.ChannelChangeClearComesLate` | src/modules/AutoresponderModule.cpp:420-438 | a sender heard under the old channel name is refused, and the cached name stays stale on that message |
| `Properties.ChannelChangeResetsDedup` | src/modules/AutoresponderModule.cpp:432-438 | after a reply following a name change, the cached name is the current one and the channel dedup set is empty |

## Findings

| source | as written | input that shows it | evidently intended | confidence | as-written member | corrected member |
|---|---|---|---|---|---|---|
| src/modules/AutoresponderModule.cpp:231-233 | the loop leaves only when `p > 8`, after a ninth id was written to `permitted_nodes[8]` of an 8-slot array | any text with nine complete hex groups, e.g. nine `!xxxxxxxx` ids | stop after the eighth id | not executed; high | `NodeIds.NinthGroupOverflows` | `NodeIds.ParseNodeIds` |
| src/modules/AutoresponderModule.cpp:205-237 | the index `r` is a `uint8_t`: after index 255, `r++` wraps to 0 and `r < strlen(rawString)` holds again, so the first 256 characters are read over and over until 9 ids are stored | 256 spaces: the loop never ends; `!12345678` followed by 247 spaces: 9 copies of the id | scan the text once | not executed; medium (whether an admin message can carry 256 characters depends on a payload limit defined outside the modelled files) | `NodeIds.WrappedIndexHangs` | `NodeIds.ParseNodeIds` |
| src/modules/AutoresponderModule.cpp:571-572 | `MS_IN_MINUTE * max(repeat_hours, floor)` is computed and stored in 32 bits and wraps | `repeat_hours = 71583`: interval 12704 ms on a public channel, so the channel dedup set is cleared on every 60 s `runOnce` tick instead of at most every 8 × MS_IN_MINUTE | the interval never drops below the floor | not executed; medium (MS_IN_MINUTE is defined outside the modelled files and taken as 60000) | `Scheduler.ChannelFloorUndercutAsWritten` | `Scheduler.ClearChannelInterval` |

The rest of the model uses the corrected definitions. `Settings.ApplyCommand`
stores `NodeIds.ParseNodeIds`, and `Scheduler.PeriodicTasks` and
`Scheduler.RunOnce` use `Scheduler.ClearChannelInterval`. The corrected parser
agrees with the code as written on text shorter than 256 characters with at
most 8 complete groups (`NodeIds.ParseAgreesWithinCapacity`). The corrected
interval agrees for every `repeat_hours` up to 71582
(`Scheduler.ClearChannelIntervalAgrees`).

## Left out

- `sendText` and `service.sendToMesh`: radio I/O. A send is the returned `Reply`, and the router's packet id is the input `newId`.
- Protobuf decoding of the routing payload in `checkForAck`: the packet is given as the pair (error reason, request id). When decoding fails, the source falls back to `error_reason == NONE`, so an undecodable routing packet with a matching request id counts as an ack. This case is not modelled separately.
- `handleSentText` token parsing (`getArg`, `stringsMatch`, `parseBool`, `atoi`): their bodies are not part of this model. `Settings.Command` carries already-parsed values. The "all" keyword for the allow-list corresponds to `SetPermittedNodes("")`.
- Logging, `sendPhoneFeedback`, the feedback strings built with `sprintf`/`strcat`, `printHelp`, the screen, and the body of `reboot()`: a requested restart is the `reboot` flag, and the restart itself is the separate `Restart` event of `Properties.Event`, which a trace may place anywhere, not only after a command that requests it.
- `getDataHash`: its body is not part of this model. It is the parameter `hash`.
- `std::stoul`: replaced by the digit fold `NodeIds.HexFold`.
- The nRF52 save-failure counter, `NVIC_SystemReset` and the `saveConfig()` retry (DIYModule.h:137-146): platform-specific device reset.
- The build without a filesystem (DIYModule.h:88-91, 148-150).
- Filesystem semantics beyond exists/open/read/write/remove/rename/mkdir on an abstract map. Opening for write is taken to truncate. The staging write is taken to complete. `mkdir` is taken to succeed.
- The byte layout of `AutoresponderConfig`: the store works on raw bytes of any fixed size, and the autoresponder reports each `saveData` call as a `saved` flag instead of serialising its configuration.
- OSThread scheduling: `runOnce` is a function of `now` and its three timestamps.
- `src/graphics/EInkCustomScreensavers.h`: display drawing only.
- Settings.ApplyCommand: requires the message text to fit `message[200]`. The source copies it with an unchecked `strcpy`.
- Store.TamperedRecordRejected: detects tampering only when the tampered bytes hash differently, because nothing is assumed about `getDataHash`; "any bit flip is detected" is not provable without knowing the hash.
- Scheduler.PeriodicTasks: clears the channel dedup set on the corrected interval. For `repeat_hours` above 71582 the source's wrapped interval can be far shorter; at 71583 the source clears the channel dedup set on every `runOnce` tick (about once a minute) instead of at most every 8 minutes, and this model does not (see Findings, `Scheduler.UndercutClearsEveryTick`).
- Scheduler.RunOnce: uses the corrected channel-clear interval through `Scheduler.PeriodicTasks`, so it differs from the source for `repeat_hours` above 71582 (see Findings).
- NodeIds.ParseNodeIds: scans the whole text once. The source's 8-bit index instead re-reads the first 256 characters of longer text, or never ends (see Findings); `NodeIds.ParseAsWritten` models that.
- Settings.ApplyCommand: stores the corrected parse, so on text of 256 or more characters it differs from the source, which may hang or store repeated ids there.
- Settings.Start: takes the configuration `loadData` produced as an input instead of calling the store itself.

=== FILE: autoresponder.dfy ===
/** The autoresponder's decision logic (src/modules/AutoresponderModule.cpp,
    state declared in src/modules/AutoresponderModule.h).

    The module's configuration and its runtime fields form one immutable
    `Responder` record; every handler is a pure function from the record (and
    the inputs the firmware would read from the radio, the clock or the channel
    table) to the next record and the reply, if any, that it sends.

    Sending is modelled as an effect: the handler returns the `Reply` it would
    hand to the mesh, and the packet id the router assigns to it is an input
    (`newId`). */
module Autoresponder {
  import opened Types

  // Fixed limits (AutoresponderModule.cpp:12-24).
  const MaxResponsesChannelDaily: nat := 10
  const ExpireAfterBootNum: nat := 5
  const CooldownChannelMinutes: nat := 2
  const RepeatDmMinutes: nat := 2
  const MinRepeatPubChanHours: nat := 8
  const MinRepeatPrivChanHours: nat := 4
  const MaxExpirationChannelHours: nat := 72

  /** Milliseconds per minute. The firmware defines MS_IN_MINUTE outside the
      modelled files; its value is 60 * 1000. The module multiplies "hours"
      settings by this constant, as written. */
  const MsInMinute: nat := 60000

  /** Node number 0 marks a packet from this node itself. */
  const OwnNode: uint32 := 0

  const NodeNumBroadcast: uint32 := 0xFFFF_FFFF

  /** `meshtastic_Routing_Error_NONE`. */
  const RoutingErrorNone: nat := 0

  /** Size of the `message` buffer, terminator included. */
  const MessageCapacity: nat := 200

  /** `AutoresponderConfig` (AutoresponderModule.cpp:27-37). The array
      `permitted_nodes` with its count is the list `permittedNodes` of its first
      `permitted_nodes_count` entries: no operation reads the slots beyond. */
  datatype Config = Config(
    enabledDm: bool,
    enabledInChannel: bool,
    bootcount: uint32,
    repeatHours: uint32,
    expirationHours: uint32,
    shouldDmExpire: bool,
    permittedNodes: seq<uint32>,
    message: string)

  /** The member initialisers of `AutoresponderConfig`. */
  const DefaultConfig: Config := Config(false, false, 0, 0, 1, false, [], "")

  /** Configuration plus the runtime fields of `AutoresponderModule`
      (AutoresponderModule.h:49-58) and the three `static` timestamps of
      `runOnce` (AutoresponderModule.cpp:564-566). */
  datatype Responder = Responder(
    config: Config,
    waitingForAck: bool,
    outgoingId: uint32,
    respondingTo: uint32,
    wasDM: bool,
    channelName: string,
    heardInDM: set<uint32>,
    heardInChannel: set<uint32>,
    responsesInChannelToday: nat,
    prevInChannelResponseMs: uint32,
    prevClearDM: uint32,
    prevClearChannel: uint32,
    prevDailyTasks: uint32)

  /** What `handleReceived` can be handed: a text message, a routing packet
      already decoded to its error reason and the id of the packet it
      acknowledges, or a packet of some other port. */
  datatype Packet =
    | Text(from: uint32, to: uint32, channel: nat)
    | Routing(errorReason: nat, requestId: uint32)
    | OtherPort

  /** A text packet handed to the mesh by `sendText`. */
  datatype Reply = Reply(dest: uint32, channel: nat, text: string, id: uint32, viaDM: bool)

  datatype Outcome = Outcome(state: Responder, reply: Option<Reply>)

  /** What the handlers read from their surroundings: this node's number, the
      clock, the primary channel's name, and the id the router gives the next
      packet sent. */
  datatype Env = Env(myNodeNum: uint32, now: uint32, primaryName: string, newId: uint32)

  function Silent(s: Responder): Outcome
  {
    Outcome(s, None)
  }

  // ---------------------------------------------------------------------
  // Allow-list
  // ---------------------------------------------------------------------

  /** The loop of `isNodePermitted` from index `i` on. */
  function ListedFrom(permitted: seq<uint32>, node: uint32, i: nat): (r: bool)
    requires i <= |permitted|
    ensures r <==> exists j :: i <= j < |permitted| && permitted[j] == node
    decreases |permitted| - i
  {
    i < |permitted| && (permitted[i] == node || ListedFrom(permitted, node, i + 1))
  }

  /** `isNodePermitted` (AutoresponderModule.cpp:496-510): an empty list
      admits everyone, otherwise exactly the listed nodes. */
  function IsNodePermitted(permitted: seq<uint32>, node: uint32): (r: bool)
    ensures |permitted| == 0 ==> r
    ensures |permitted| > 0 ==> (r <==> node in permitted)
  {
    |permitted| == 0 || ListedFrom(permitted, node, 0)
  }

  // ---------------------------------------------------------------------
  // Guards
  // ---------------------------------------------------------------------

  /** Every check `handleDM` makes before replying. */
  predicate DmEligible(s: Responder, from: uint32)
  {
    && s.config.enabledDm
    && from != OwnNode
    && from !in s.heardInDM
    && IsNodePermitted(s.config.permittedNodes, from)
  }

  /** The daily-cap test. As written it compares with `>`, so the cap lets
      MaxResponsesChannelDaily + 1 replies through per window. */
  predicate DailyCapReached(s: Responder)
  {
    s.responsesInChannelToday > MaxResponsesChannelDaily
  }

  /** The cooldown test: 0 is the "no previous reply" sentinel, and the time
      since the last reply is measured by wrap-safe unsigned subtraction. */
  predicate CoolingDown(s: Responder, now: uint32)
  {
    Sub32(now, s.prevInChannelResponseMs) < CooldownChannelMinutes * MsInMinute
    && s.prevInChannelResponseMs != 0
  }

  /** Every check `handleChannel` makes before replying. */
  predicate ChannelEligible(s: Responder, from: uint32, channel: nat, now: uint32)
  {
    && s.config.enabledInChannel
    && channel == 0
    && from != OwnNode
    && !DailyCapReached(s)
    && !CoolingDown(s, now)
    && from !in s.heardInChannel
    && IsNodePermitted(s.config.permittedNodes, from)
  }

  // ---------------------------------------------------------------------
  // Handlers
  // ---------------------------------------------------------------------

  /** `handleDM` (AutoresponderModule.cpp:361-389). There is no check of
      `waitingForAck`: a reply still awaiting its ack is simply superseded. */
  function HandleDM(s: Responder, from: uint32, channel: nat, newId: uint32): (r: Outcome)
    ensures r.reply.Some? <==> DmEligible(s, from)
    ensures !DmEligible(s, from) ==> r.state == s
    ensures DmEligible(s, from) ==>
      && r.reply == Some(Reply(from, channel, s.config.message, newId, true))
      && r.state == s.(outgoingId := newId, respondingTo := from, waitingForAck := true, wasDM := true)
  {
    if !s.config.enabledDm then Silent(s)
    else if from == OwnNode then Silent(s)
    else if from in s.heardInDM then Silent(s)
    else if !IsNodePermitted(s.config.permittedNodes, from) then Silent(s)
    else
      var reply := Reply(from, channel, s.config.message, newId, true);
      Outcome(s.(outgoingId := newId, respondingTo := from, waitingForAck := true, wasDM := true), Some(reply))
  }

  /** `handleChannel` (AutoresponderModule.cpp:392-448). The channel-change
      test comes after the dedup test, so a node heard under the previous
      channel name is still refused on the message that reveals the change. */
  function HandleChannel(s: Responder, from: uint32, channel: nat, now: uint32,
                         primaryName: string, newId: uint32): (r: Outcome)
    ensures r.reply.Some? <==> ChannelEligible(s, from, channel, now)
    ensures !ChannelEligible(s, from, channel, now) ==> r.state == s
    ensures ChannelEligible(s, from, channel, now) ==>
      && r.reply == Some(Reply(NodeNumBroadcast, 0, s.config.message, newId, false))
      && r.state.config == s.config
      && r.state.heardInDM == s.heardInDM
      && r.state.channelName == primaryName
      && r.state.heardInChannel == (if s.channelName == primaryName then s.heardInChannel else {})
      && r.state.responsesInChannelToday == s.responsesInChannelToday + 1
      && r.state.responsesInChannelToday <= MaxResponsesChannelDaily + 1
      && r.state.prevInChannelResponseMs == now
      && r.state.waitingForAck && !r.state.wasDM
      && r.state.outgoingId == newId && r.state.respondingTo == from
      && r.state.prevClearDM == s.prevClearDM
      && r.state.prevClearChannel == s.prevClearChannel
      && r.state.prevDailyTasks == s.prevDailyTasks
  {
    if !s.config.enabledInChannel then Silent(s)
    else if channel != 0 then Silent(s)
    else if from == OwnNode then Silent(s)
    else if DailyCapReached(s) then Silent(s)
    else if CoolingDown(s, now) then Silent(s)
    else if from in s.heardInChannel then Silent(s)
    else if !IsNodePermitted(s.config.permittedNodes, from) then Silent(s)
    else
      var s1 := if primaryName != s.channelName
                then ClearHeardInChannel(s).(channelName := primaryName)
                else s;
      var reply := Reply(NodeNumBroadcast, 0, s.config.message, newId, false);
      Outcome(s1.(outgoingId := newId,
                  respondingTo := from,
                  responsesInChannelToday := s.responsesInChannelToday + 1,
                  prevInChannelResponseMs := now,
                  waitingForAck := true,
                  wasDM := false),
              Some(reply))
  }

  /** True when an ack confirms the latest reply. */
  predicate AcksLatest(s: Responder, errorReason: nat, requestId: uint32)
  {
    errorReason == RoutingErrorNone && requestId == s.outgoingId
  }

  /** `checkForAck` (AutoresponderModule.cpp:451-474): only a successful ack
      of the latest outgoing id counts; the recipient then joins the dedup set
      of the context the reply was sent in. */
  function CheckForAck(s: Responder, errorReason: nat, requestId: uint32): (r: Responder)
    ensures !AcksLatest(s, errorReason, requestId) ==> r == s
    ensures AcksLatest(s, errorReason, requestId) ==>
      && !r.waitingForAck
      && r.heardInDM == (if s.wasDM then s.heardInDM + {s.respondingTo} else s.heardInDM)
      && r.heardInChannel == (if s.wasDM then s.heardInChannel else s.heardInChannel + {s.respondingTo})
      && r.(waitingForAck := s.waitingForAck, heardInDM := s.heardInDM, heardInChannel := s.heardInChannel) == s
  {
    if errorReason == RoutingErrorNone && requestId == s.outgoingId then
      if s.wasDM then s.(waitingForAck := false, heardInDM := s.heardInDM + {s.respondingTo})
      else s.(waitingForAck := false, heardInChannel := s.heardInChannel + {s.respondingTo})
    else s
  }

  /** `handleReceived` (AutoresponderModule.cpp:96-114): text addressed to
      this node is a DM, any other text is a channel message, routing packets
      are checked for acks, everything else is ignored. */
  function HandleReceived(s: Responder, p: Packet, env: Env): (r: Outcome)
    ensures p.Text? && p.to == env.myNodeNum ==> r == HandleDM(s, p.from, p.channel, env.newId)
    ensures p.Text? && p.to != env.myNodeNum ==>
      r == HandleChannel(s, p.from, p.channel, env.now, env.primaryName, env.newId)
    ensures p.Routing? ==> r == Silent(CheckForAck(s, p.errorReason, p.requestId))
    ensures p.OtherPort? ==> r == Silent(s)
  {
    match p
    case Text(from, to, channel) =>
      if to == env.myNodeNum then HandleDM(s, from, channel, env.newId)
      else HandleChannel(s, from, channel, env.now, env.primaryName, env.newId)
    case Routing(errorReason, requestId) => Silent(CheckForAck(s, errorReason, requestId))
    case OtherPort => Silent(s)
  }

  /** `wantPacket` (AutoresponderModule.cpp:78-93): nothing while both modes
      are off; otherwise every text message, and routing packets only while a
      reply is awaiting its ack. */
  function WantPacket(s: Responder, p: Packet): (r: bool)
    ensures !s.config.enabledDm && !s.config.enabledInChannel ==> !r
    ensures p.Routing? ==> (r <==> (s.config.enabledDm || s.config.enabledInChannel) && s.waitingForAck)
    ensures p.Text? ==> (r <==> s.config.enabledDm || s.config.enabledInChannel)
    ensures p.OtherPort? ==> !r
  {
    if !s.config.enabledDm && !s.config.enabledInChannel then false
    else
      match p
      case Text(_, _, _) => true
      case Routing(_, _) => s.waitingForAck
      case OtherPort => false
  }

  // ---------------------------------------------------------------------
  // Clearing tasks (AutoresponderModule.cpp:631-650)
  // ---------------------------------------------------------------------

  /** `clearHeardInDM`: empties the DM dedup set and nothing else. */
  function ClearHeardInDM(s: Responder): (r: Responder)
    ensures r.heardInDM == {}
    ensures r.(heardInDM := s.heardInDM) == s
  {
    s.(heardInDM := {})
  }

  /** `clearHeardInChannel`: empties the channel dedup set and nothing else. */
  function ClearHeardInChannel(s: Responder): (r: Responder)
    ensures r.heardInChannel == {}
    ensures r.(heardInChannel := s.heardInChannel) == s
  {
    s.(heardInChannel := {})
  }

  /** `handleDailyTasks`: resets the daily reply counter and nothing else. */
  function HandleDailyTasks(s: Responder): (r: Responder)
    ensures r.responsesInChannelToday == 0
    ensures r.(responsesInChannelToday := s.responsesInChannelToday) == s
  {
    s.(responsesInChannelToday := 0)
  }
}

=== FILE: node_ids.dfy ===
/** The permitted-nodes parser of the autoresponder
    (`setPermittedNodes`, src/modules/AutoresponderModule.cpp:199-241).

    The raw text is scanned one character at a time. Each character is
    lower-cased; characters other than 0-9 and a-f are skipped; every run of 8
    accepted hex digits is parsed as one 32-bit node id and appended to the
    list; a trailing group of fewer than 8 digits is dropped.

    The source stops scanning once `p > 8`, that is after the NINTH id has
    already been written to index 8 of an 8-slot array, and its character
    index is a `uint8_t` that wraps on text of 256 or more characters.
    `ParseAsWritten` models that loop; `NinthGroupOverflows` and
    `WrappedIndexHangs` exhibit the two defects. `ParseNodeIds` is the
    corrected loop, which scans the text once and stops after 8 ids; it is what
    the autoresponder uses. The two agree exactly on text shorter than 256
    characters with at most 8 complete groups (`ParseAgreesWithinCapacity`).

    The source works on a C string and `strlen` counts bytes, while `|raw|`
    counts the elements of a Dafny string. The 256-character threshold matches
    the source when each element stands for one byte of the C string, as it
    does for ASCII text. */
module NodeIds {
  import opened Types

  /** Hex characters per node id. */
  const GroupLength: nat := 8

  /** Slots in `permitted_nodes` (AutoresponderModule.cpp:34). */
  const Capacity: nat := 8

  /** C's `tolower` on ASCII. */
  function Lower(c: char): char
  {
    if 'A' <= c <= 'Z' then (c as int + 32) as char else c
  }

  /** `isdigit(c) || (c >= 'a' && c <= 'f')` */
  predicate IsHexDigit(c: char)
  {
    '0' <= c <= '9' || 'a' <= c <= 'f'
  }

  predicate AllHex(s: seq<char>)
  {
    forall i :: 0 <= i < |s| ==> IsHexDigit(s[i])
  }

  function HexValue(c: char): (v: nat)
    requires IsHexDigit(c)
    ensures v < 16
  {
    if c <= '9' then c as int - '0' as int else c as int - 'a' as int + 10
  }

  /** The lower-case digit `printf("%x")` uses for `d`. */
  function DigitChar(d: nat): (c: char)
    requires d < 16
    ensures IsHexDigit(c) && HexValue(c) == d
  {
    if d < 10 then ('0' as int + d) as char else ('a' as int + d - 10) as char
  }

  function Pow16(k: nat): (p: nat)
    ensures p >= 1
  {
    if k == 0 then 1 else 16 * Pow16(k - 1)
  }

  lemma Pow16Group()
    ensures Pow16(GroupLength) == TwoTo32
  {
    assert Pow16(0) == 1;
    assert Pow16(1) == 16;
    assert Pow16(2) == 0x100;
    assert Pow16(3) == 0x1000;
    assert Pow16(4) == 0x1_0000;
    assert Pow16(5) == 0x10_0000;
    assert Pow16(6) == 0x100_0000;
    assert Pow16(7) == 0x1000_0000;
  }

  /** The value of a hex numeral, most significant digit first (what
      `std::stoul(s, nullptr, 16)` returns for a string of hex digits). */
  function HexFold(s: seq<char>): (v: nat)
    requires AllHex(s)
    ensures v < Pow16(|s|)
    decreases |s|
  {
    if s == [] then 0 else HexFold(s[..|s| - 1]) * 16 + HexValue(s[|s| - 1])
  }

  /** A group of 8 hex digits always fits a `uint32_t`. */
  function GroupValue(s: seq<char>): (v: uint32)
    requires AllHex(s) && |s| == GroupLength
    ensures v == HexFold(s)
  {
    Pow16Group();
    HexFold(s)
  }

  // ---------------------------------------------------------------------
  // Reference definition: the accepted digits, cut into groups of 8
  // ---------------------------------------------------------------------

  /** The lower-cased hex digits of `raw`, in order; everything else dropped. */
  function HexChars(raw: string): (h: seq<char>)
    ensures AllHex(h)
    ensures |h| <= |raw|
  {
    if raw == [] then []
    else
      var l := Lower(raw[0]);
      (if IsHexDigit(l) then [l] else []) + HexChars(raw[1..])
  }

  /** Consecutive groups of 8 digits, each as a node id; a final group of fewer
      than 8 digits contributes nothing. */
  function Chunks(h: seq<char>): (ids: seq<uint32>)
    requires AllHex(h)
    ensures |ids| == |h| / GroupLength
    decreases |h|
  {
    if |h| < GroupLength then [] else [GroupValue(h[..GroupLength])] + Chunks(h[GroupLength..])
  }

  /** Every complete group of hex digits in `raw`, in order. */
  function HexGroups(raw: string): seq<uint32>
  {
    Chunks(HexChars(raw))
  }

  function Take<T>(s: seq<T>, n: nat): (t: seq<T>)
    ensures |t| == if |s| <= n then |s| else n
    ensures t <= s
  {
    if |s| <= n then s else s[..n]
  }

  // ---------------------------------------------------------------------
  // The scanning loop
  // ---------------------------------------------------------------------

  /** Loop state: `pending` is `nodeIDBuilder[0..n]`, `ids` is
      `permitted_nodes[0..p]`. */
  datatype Builder = Builder(pending: seq<char>, ids: seq<uint32>)

  predicate WellFormed(b: Builder)
  {
    |b.pending| < GroupLength && AllHex(b.pending)
  }

  const Empty: Builder := Builder([], [])

  /** One iteration of the loop body for character `c`. */
  function Step(b: Builder, c: char): (b': Builder)
    requires WellFormed(b)
    ensures WellFormed(b')
  {
    var l := Lower(c);
    if !IsHexDigit(l) then b
    else if |b.pending| + 1 == GroupLength then Builder([], b.ids + [GroupValue(b.pending + [l])])
    else Builder(b.pending + [l], b.ids)
  }

  /** The loop over `raw`, leaving it once `cap` ids have been stored. */
  function Scan(raw: string, b: Builder, cap: nat): (b': Builder)
    requires WellFormed(b)
    ensures WellFormed(b')
    decreases |raw|
  {
    if raw == [] || |b.ids| >= cap then b else Scan(raw[1..], Step(b, raw[0]), cap)
  }

  /** The values the loop index `r` can take: it is a `uint8_t`. */
  const IndexRange: nat := 256

  /** Passes over the first IndexRange characters after which a wrapped loop
      that reads any hex digit at all has read the 72 digits of nine ids. */
  const Rounds: nat := GroupLength * (Capacity + 1)

  /** `w` repeated `k` times. */
  function Cycle(w: string, k: nat): (s: string)
    ensures |s| == k * |w|
  {
    if k == 0 then [] else w + Cycle(w, k - 1)
  }

  /** The loop exactly as written, or None where it never ends.

      Two things differ from the intended parse. The `p > 8` test lets a ninth
      id through. And the index `r` is a `uint8_t`: on text of IndexRange or
      more characters, `r++` wraps to 0 after index 255 and `r < strlen` holds
      again, so the loop reads the first IndexRange characters over and over
      and leaves only once nine ids are stored. If those characters hold no
      hex digit, it never leaves. Scanning Rounds copies of them reaches the
      nine ids, after which further copies change nothing
      (`WrappedScanSettles`). */
  function ParseAsWritten(raw: string): (r: Option<seq<uint32>>)
    ensures |raw| < IndexRange ==> r == Some(Take(HexGroups(raw), Capacity + 1))
    ensures |raw| >= IndexRange ==> (r.None? <==> HexChars(raw[..IndexRange]) == [])
    ensures |raw| >= IndexRange && r.Some? ==>
      && r.value == Take(HexGroups(Cycle(raw[..IndexRange], Rounds)), Capacity + 1)
      && |r.value| == Capacity + 1
  {
    if |raw| < IndexRange then
      ScanCollectsGroups(raw, Empty, Capacity + 1);
      assert Empty.pending + HexChars(raw) == HexChars(raw);
      assert Empty.ids + HexGroups(raw) == HexGroups(raw);
      Some(Scan(raw, Empty, Capacity + 1).ids)
    else if HexChars(raw[..IndexRange]) == [] then None
    else
      var w := raw[..IndexRange];
      WrappedScanFillsUp(w);
      Some(Scan(Cycle(w, Rounds), Empty, Capacity + 1).ids)
  }

  /** The corrected loop: the whole text is scanned once, and it stops after
      `Capacity` ids. It stores the first `Capacity` complete hex groups of the
      input, in order. */
  function ParseNodeIds(raw: string): (r: seq<uint32>)
    ensures r == Take(HexGroups(raw), Capacity)
    ensures |r| <= Capacity
  {
    ScanCollectsGroups(raw, Empty, Capacity);
    assert Empty.pending + HexChars(raw) == HexChars(raw);
    Scan(raw, Empty, Capacity).ids
  }

  lemma TakeAppend<T>(a: seq<T>, b: seq<T>, n: nat)
    requires |a| >= n
    ensures Take(a + b, n) == Take(a, n)
  {
    if |a| > n {
      assert (a + b)[..n] == a[..n];
    } else {
      assert (a + b)[..n] == a;
    }
  }

  lemma ChunksAfterGroup(group: seq<char>, tail: seq<char>)
    requires AllHex(group) && AllHex(tail) && |group| == GroupLength
    ensures AllHex(group + tail)
    ensures Chunks(group + tail) == [GroupValue(group)] + Chunks(tail)
  {
    var h := group + tail;
    assert h[..GroupLength] == group;
    assert h[GroupLength..] == tail;
  }

  /** One loop iteration keeps "ids so far, then the groups of the digits still
      to come" invariant. */
  lemma {:induction false} StepKeepsGroups(b: Builder, c: char, tail: seq<char>)
    requires WellFormed(b) && AllHex(tail)
    ensures var l := Lower(c);
      var b' := Step(b, c);
      var accepted := if IsHexDigit(l) then [l] else [];
      && AllHex(b.pending + (accepted + tail))
      && b.ids + Chunks(b.pending + (accepted + tail)) == b'.ids + Chunks(b'.pending + tail)
  {
    var l := Lower(c);
    var b' := Step(b, c);
    if !IsHexDigit(l) {
      assert [] + tail == tail;
    } else if |b.pending| + 1 == GroupLength {
      var group := b.pending + [l];
      assert b.pending + ([l] + tail) == group + tail;
      ChunksAfterGroup(group, tail);
      assert b'.pending + tail == tail;
    } else {
      assert b.pending + ([l] + tail) == b'.pending + tail;
    }
  }

  /** The scanning loop collects exactly the complete hex groups, up to the
      capacity at which it stops. */
  lemma {:induction false} ScanCollectsGroups(raw: string, b: Builder, cap: nat)
    requires WellFormed(b) && |b.ids| <= cap
    ensures AllHex(b.pending + HexChars(raw))
    ensures Scan(raw, b, cap).ids == Take(b.ids + Chunks(b.pending + HexChars(raw)), cap)
  {
    var rest := b.pending + HexChars(raw);
    if |b.ids| >= cap {
      TakeAppend(b.ids, Chunks(rest), cap);
    } else if raw == [] {
      assert rest == b.pending;
    } else {
      var l := Lower(raw[0]);
      var accepted := if IsHexDigit(l) then [l] else [];
      var tail := HexChars(raw[1..]);
      assert HexChars(raw) == accepted + tail;
      StepKeepsGroups(b, raw[0], tail);
      ScanCollectsGroups(raw[1..], Step(b, raw[0]), cap);
    }
  }

  // ---------------------------------------------------------------------
  // The wrapped index
  // ---------------------------------------------------------------------

  lemma {:induction false} CycleAdd(w: string, m: nat, n: nat)
    ensures Cycle(w, m + n) == Cycle(w, m) + Cycle(w, n)
  {
    if m > 0 {
      CycleAdd(w, m - 1, n);
      assert Cycle(w, m + n) == w + Cycle(w, m - 1 + n);
    }
  }

  lemma {:induction false} HexCharsCycle(w: string, k: nat)
    ensures HexChars(Cycle(w, k)) == Cycle(HexChars(w), k)
  {
    if k > 0 {
      HexCharsAppend(w, Cycle(w, k - 1));
      HexCharsCycle(w, k - 1);
    }
  }

  /** Once the loop has stored `cap` ids, more input changes nothing. */
  lemma {:induction false} ScanPastCap(a: string, rest: string, b: Builder, cap: nat)
    requires WellFormed(b)
    ensures |Scan(a, b, cap).ids| >= cap ==> Scan(a + rest, b, cap) == Scan(a, b, cap)
    decreases |a|
  {
    if a != [] && |b.ids| < cap {
      assert (a + rest)[0] == a[0];
      assert (a + rest)[1..] == a[1..] + rest;
      ScanPastCap(a[1..], rest, Step(b, a[0]), cap);
    }
  }

  lemma AtLeastOnce(k: nat, n: nat)
    requires n >= 1
    ensures k * n >= k
  {
  }

  /** Rounds passes over text with at least one hex digit yield nine ids. */
  lemma WrappedScanFillsUp(w: string)
    requires HexChars(w) != []
    ensures Scan(Cycle(w, Rounds), Empty, Capacity + 1).ids
      == Take(HexGroups(Cycle(w, Rounds)), Capacity + 1)
    ensures |Scan(Cycle(w, Rounds), Empty, Capacity + 1).ids| == Capacity + 1
  {
    var text := Cycle(w, Rounds);
    var digits := HexChars(text);
    ScanCollectsGroups(text, Empty, Capacity + 1);
    assert Empty.pending + digits == digits;
    assert Empty.ids + HexGroups(text) == HexGroups(text);
    HexCharsCycle(w, Rounds);
    AtLeastOnce(Rounds, |HexChars(w)|);
    assert |digits| >= Rounds;
    assert |HexGroups(text)| == |digits| / GroupLength >= Capacity + 1;
  }

  /** The wrapped loop, run for any number of passes beyond Rounds, stores
      the same ids: Rounds passes stand for the unbounded loop. */
  lemma WrappedScanSettles(w: string, k: nat)
    requires HexChars(w) != [] && k >= Rounds
    ensures Scan(Cycle(w, k), Empty, Capacity + 1) == Scan(Cycle(w, Rounds), Empty, Capacity + 1)
  {
    WrappedScanFillsUp(w);
    CycleAdd(w, Rounds, k - Rounds);
    ScanPastCap(Cycle(w, Rounds), Cycle(w, k - Rounds), Empty, Capacity + 1);
  }

  // ---------------------------------------------------------------------
  // The code as written against the corrected parse
  // ---------------------------------------------------------------------

  /** On text shorter than IndexRange with at most `Capacity` complete groups
      the loop as written and the corrected loop store the same ids, all of
      the groups. On longer text they never agree: the wrapped loop hangs or
      stores nine ids. */
  lemma ParseAgreesWithinCapacity(raw: string)
    requires |HexGroups(raw)| <= Capacity
    ensures ParseNodeIds(raw) == HexGroups(raw)
    ensures ParseAsWritten(raw) == Some(ParseNodeIds(raw)) <==> |raw| < IndexRange
  {
  }

  /** The loop as written stores nine ids, one more than the array holds,
      whenever the input has nine or more complete groups and the loop ends. */
  lemma NinthGroupOverflows(raw: string)
    requires |HexGroups(raw)| > Capacity
    ensures |raw| < IndexRange ==> ParseAsWritten(raw).Some?
    ensures ParseAsWritten(raw).Some? ==> |ParseAsWritten(raw).value| == Capacity + 1
    ensures |ParseNodeIds(raw)| == Capacity
  {
  }

  /** No hex digit among the characters gives no accepted digit. */
  lemma {:induction false} NoDigitsNoHexChars(raw: string)
    requires forall i :: 0 <= i < |raw| ==> !IsHexDigit(Lower(raw[i]))
    ensures HexChars(raw) == []
  {
    if raw != [] {
      assert !IsHexDigit(Lower(raw[0]));
      NoDigitsNoHexChars(raw[1..]);
    }
  }

  /** The wrapped index hangs the loop: text of IndexRange or more characters
      whose first IndexRange characters hold no hex digit (256 spaces, say)
      never leaves the loop, while the corrected parse stores its groups. */
  lemma WrappedIndexHangs(raw: string)
    requires |raw| >= IndexRange
    requires forall i :: 0 <= i < IndexRange ==> !IsHexDigit(Lower(raw[i]))
    ensures ParseAsWritten(raw) == None
    ensures ParseNodeIds(raw) == Take(HexGroups(raw), Capacity)
  {
    NoDigitsNoHexChars(raw[..IndexRange]);
  }

  // ---------------------------------------------------------------------
  // Formatting: the inverse of the parser
  // ---------------------------------------------------------------------

  /** The `k` low hex digits of `x`, most significant first. */
  function HexDigits(x: nat, k: nat): (s: seq<char>)
    ensures |s| == k && AllHex(s)
  {
    if k == 0 then [] else HexDigits(x / 16, k - 1) + [DigitChar(x % 16)]
  }

  /** A node id as 8 lower-case, zero-padded hex digits (`%08x`). The
      module's own feedback prints ids with `"!%0x"`
      (AutoresponderModule.cpp:256), which does not pad: an id below
      0x1000_0000 is printed with fewer than 8 digits, and such a list does
      not parse back. */
  function Hex8(id: uint32): (s: seq<char>)
    ensures |s| == GroupLength && AllHex(s)
  {
    HexDigits(id, GroupLength)
  }

  lemma {:induction false} HexFoldDigits(x: nat, k: nat)
    requires x < Pow16(k)
    ensures HexFold(HexDigits(x, k)) == x
  {
    if k > 0 {
      var s := HexDigits(x, k);
      assert s[..|s| - 1] == HexDigits(x / 16, k - 1);
      HexFoldDigits(x / 16, k - 1);
    }
  }

  /** The list as a user would type it: `!xxxxxxxx ` per id. */
  function FormatNodeList(ids: seq<uint32>): string
  {
    if ids == [] then [] else "!" + Hex8(ids[0]) + " " + FormatNodeList(ids[1..])
  }

  lemma {:induction false} HexCharsAppend(a: string, b: string)
    ensures HexChars(a + b) == HexChars(a) + HexChars(b)
  {
    if a == [] {
      assert a + b == b;
    } else {
      var l := Lower(a[0]);
      var accepted := if IsHexDigit(l) then [l] else [];
      assert (a + b)[0] == a[0];
      assert (a + b)[1..] == a[1..] + b;
      assert HexChars(a + b) == accepted + HexChars(a[1..] + b);
      HexCharsAppend(a[1..], b);
    }
  }

  lemma {:induction false} HexCharsOfHex(s: seq<char>)
    requires AllHex(s)
    ensures HexChars(s) == s
  {
    if s != [] {
      HexCharsOfHex(s[1..]);
    }
  }

  lemma {:induction false} GroupsOfFormat(ids: seq<uint32>)
    ensures HexGroups(FormatNodeList(ids)) == ids
  {
    if ids != [] {
      var h := Hex8(ids[0]);
      var tail := FormatNodeList(ids[1..]);
      HexCharsAppend("!" + h + " ", tail);
      HexCharsAppend("!" + h, " ");
      HexCharsAppend("!", h);
      HexCharsOfHex(h);
      assert HexChars("!") == [] && HexChars(" ") == [];
      var chars := HexChars(FormatNodeList(ids));
      assert chars == h + HexChars(tail);
      assert chars[..GroupLength] == h;
      assert chars[GroupLength..] == HexChars(tail);
      Pow16Group();
      HexFoldDigits(ids[0], GroupLength);
      GroupsOfFormat(ids[1..]);
    }
  }

  /** Round trip: any list of up to 8 ids, written out as zero-padded hex,
      parses back to the same list. Unpadded ids, as the feedback message
      prints them, are not covered (see `Hex8`). */
  lemma {:induction false} FormatParseRoundTrip(ids: seq<uint32>)
    requires |ids| <= Capacity
    ensures ParseNodeIds(FormatNodeList(ids)) == ids
  {
    GroupsOfFormat(ids);
  }

  /** Letter case does not matter: upper-case hex digits are accepted and
      read as their lower-case forms. */
  lemma {:induction false} HexCharsIgnoresCase(raw: string)
    ensures HexChars(raw) == HexChars(LowerAll(raw))
  {
    if raw != [] {
      assert LowerAll(raw)[1..] == LowerAll(raw[1..]);
      HexCharsIgnoresCase(raw[1..]);
    }
  }

  function LowerAll(s: string): (t: string)
    ensures |t| == |s|
    ensures forall i :: 0 <= i < |s| ==> t[i] == Lower(s[i])
  {
    if s == [] then [] else [Lower(s[0])] + LowerAll(s[1..])
  }

  lemma ParseIgnoresCase(raw: string)
    ensures ParseNodeIds(raw) == ParseNodeIds(LowerAll(raw))
  {
    HexCharsIgnoresCase(raw);
  }
}

=== FILE: properties.dfy ===
/** Properties of the autoresponder over sequences of events: the invariant
    every transition keeps, the per-window bound on channel replies, and the
    dedup, cooldown, ack and channel-change behaviours of
    src/modules/AutoresponderModule.cpp, stated as scenarios. */
module Properties {
  import opened Types
  import NodeIds
  import opened Autoresponder
  import opened Settings
  import opened Scheduler

  /** Everything that can happen to the module while it runs: a packet
      arrives, `runOnce` is called, a configuration command is applied, or the
      node restarts. A restart rebuilds the module from its saved
      configuration; the fields the constructor leaves uninitialised take the
      values the event carries. */
  datatype Event =
    | Receive(p: Packet, env: Env)
    | Clock(now: uint32, primaryName: string)
    | Configure(cmd: Command)
    | Restart(primaryName: string, outgoingId: uint32, respondingTo: uint32, wasDM: bool)

  predicate Admissible(e: Event)
  {
    e.Configure? ==> Fits(e.cmd)
  }

  predicate AllAdmissible(es: seq<Event>)
  {
    forall i :: 0 <= i < |es| ==> Admissible(es[i])
  }

  /** One event. A packet reaches `handleReceived` only if `wantPacket`
      accepts it, as the module framework filters packets before dispatch. */
  function Next(s: Responder, e: Event): (r: Outcome)
    requires Admissible(e)
    // Only a received text message can produce a reply.
    ensures r.reply.Some? ==> e.Receive? && e.p.Text?
    // A packet `wantPacket` refuses changes nothing.
    ensures e.Receive? && !WantPacket(s, e.p) ==> r == Silent(s)
    // A packet it accepts goes to `handleReceived`.
    ensures e.Receive? && WantPacket(s, e.p) ==> r == HandleReceived(s, e.p, e.env)
    // A tick is `runOnce`; a command is its setter. Neither replies.
    ensures e.Clock? ==> r == Silent(RunOnce(s, e.now, e.primaryName).state)
    ensures e.Configure? ==> r == Silent(s.(config := ApplyCommand(s.config, e.cmd).config))
    // A restart runs the constructor on the saved configuration, so every
    // RAM-only counter, set and timestamp starts afresh.
    ensures e.Restart? ==>
      r == Silent(Start(s.config, e.primaryName, e.outgoingId, e.respondingTo, e.wasDM).state)
  {
    match e
    case Receive(p, env) => if WantPacket(s, p) then HandleReceived(s, p, env) else Silent(s)
    case Clock(now, primaryName) => Silent(RunOnce(s, now, primaryName).state)
    case Configure(cmd) => Silent(s.(config := ApplyCommand(s.config, cmd).config))
    case Restart(primaryName, outgoingId, respondingTo, wasDM) =>
      Silent(Start(s.config, primaryName, outgoingId, respondingTo, wasDM).state)
  }

  function Run(s: Responder, es: seq<Event>): Responder
    requires AllAdmissible(es)
    decreases |es|
  {
    if es == [] then s else Run(Next(s, es[0]).state, es[1..])
  }

  predicate IsChannelReply(o: Outcome)
  {
    o.reply.Some? && !o.reply.value.viaDM
  }

  /** How many channel replies the events produce. */
  function ChannelReplies(s: Responder, es: seq<Event>): nat
    requires AllAdmissible(es)
    decreases |es|
  {
    if es == [] then 0
    else
      var o := Next(s, es[0]);
      (if IsChannelReply(o) then 1 else 0) + ChannelReplies(o.state, es[1..])
  }

  /** The bounds the module's fields keep: the daily counter never passes
      MaxResponsesChannelDaily + 1 (so the 16-bit counter never wraps), the boot
      counter never passes the threshold, the allow-list fits its 8 slots and
      the message fits its buffer. */
  predicate Inv(s: Responder)
  {
    && s.responsesInChannelToday <= MaxResponsesChannelDaily + 1
    && s.config.bootcount <= ExpireAfterBootNum
    && |s.config.permittedNodes| <= NodeIds.Capacity
    && |s.config.message| < MessageCapacity
  }

  /** A loaded configuration that keeps the bounds gives a state that does. */
  lemma StartEstablishesInv(loaded: Config, primaryName: string,
                            outgoingId: uint32, respondingTo: uint32, wasDM: bool)
    requires loaded.bootcount <= ExpireAfterBootNum
    requires |loaded.permittedNodes| <= NodeIds.Capacity && |loaded.message| < MessageCapacity
    ensures Inv(Start(loaded, primaryName, outgoingId, respondingTo, wasDM).state)
  {
  }

  /** First boot: with no saved file, `loadData` leaves the member
      initialisers of `AutoresponderConfig` in place. Both modes are then off,
      so the constructor neither counts the boot nor saves, and the start state
      keeps the invariant. */
  lemma FirstBootIsIdle(primaryName: string, outgoingId: uint32, respondingTo: uint32, wasDM: bool)
    ensures var r := Start(DefaultConfig, primaryName, outgoingId, respondingTo, wasDM);
      && r.state.config == DefaultConfig
      && !r.saved
      && r.state.channelName == ""
      && Inv(r.state)
  {
    StartEstablishesInv(DefaultConfig, primaryName, outgoingId, respondingTo, wasDM);
  }

  /** Every event keeps the invariant, and apart from a due daily reset or a
      restart only a channel reply moves the daily counter, by exactly one. */
  lemma StepKeepsInv(s: Responder, e: Event)
    requires Inv(s) && Admissible(e)
    ensures Inv(Next(s, e).state)
    ensures (e.Clock? ==> !Due(e.now, s.prevDailyTasks, IntervalDailyTasks)) && !e.Restart? ==>
      Next(s, e).state.responsesInChannelToday
        == s.responsesInChannelToday + (if IsChannelReply(Next(s, e)) then 1 else 0)
  {
    match e
    case Receive(p, env) =>
    case Clock(now, primaryName) =>
    case Configure(cmd) =>
    case Restart(primaryName, outgoingId, respondingTo, wasDM) =>
      StartEstablishesInv(s.config, primaryName, outgoingId, respondingTo, wasDM);
  }

  lemma {:induction false} RunKeepsInv(s: Responder, es: seq<Event>)
    requires Inv(s) && AllAdmissible(es)
    ensures Inv(Run(s, es))
    decreases |es|
  {
    if es != [] {
      StepKeepsInv(s, es[0]);
      RunKeepsInv(Next(s, es[0]).state, es[1..]);
    }
  }

  /** No `runOnce` among the events is due to reset the daily counter and the
      node does not restart: the events lie within one counting window, however
      many ticks it holds. */
  predicate NoDailyReset(s: Responder, es: seq<Event>)
    requires AllAdmissible(es)
    decreases |es|
  {
    || es == []
    || (&& (es[0].Clock? ==> !Due(es[0].now, s.prevDailyTasks, IntervalDailyTasks))
        && !es[0].Restart?
        && NoDailyReset(Next(s, es[0]).state, es[1..]))
  }

  /** Daily cap: within one counting window every channel reply is counted,
      so at most MaxResponsesChannelDaily + 1 channel replies (11, as written)
      go out per window, however the messages, acks, ticks and commands
      interleave. */
  lemma {:induction false} ChannelRepliesPerWindow(s: Responder, es: seq<Event>)
    requires Inv(s) && AllAdmissible(es) && NoDailyReset(s, es)
    ensures Run(s, es).responsesInChannelToday == s.responsesInChannelToday + ChannelReplies(s, es)
    ensures s.responsesInChannelToday + ChannelReplies(s, es) <= MaxResponsesChannelDaily + 1
    decreases |es|
  {
    if es != [] {
      StepKeepsInv(s, es[0]);
      ChannelRepliesPerWindow(Next(s, es[0]).state, es[1..]);
    }
    RunKeepsInv(s, es);
  }

  /** The cap as written: a counter of exactly MaxResponsesChannelDaily does not
      block, so the eleventh reply of a window still goes out; the twelfth is
      refused. */
  lemma EleventhChannelReplyPasses(s: Responder, from: uint32, now: uint32, name: string, id: uint32)
    requires s.responsesInChannelToday == MaxResponsesChannelDaily
    requires s.config.enabledInChannel && from != OwnNode && from !in s.heardInChannel
    requires IsNodePermitted(s.config.permittedNodes, from) && !CoolingDown(s, now)
    ensures var o := HandleChannel(s, from, 0, now, name, id);
      && o.reply.Some?
      && o.state.responsesInChannelToday == MaxResponsesChannelDaily + 1
      && HandleChannel(o.state, from, 0, now, name, id).reply.None?
  {
  }

  // ---------------------------------------------------------------------
  // Dedup
  // ---------------------------------------------------------------------

  /** DM dedup: once a reply to `from` is acknowledged, `from` gets no second
      reply until the DM set is cleared, and after the clear it gets one again. */
  lemma DmDedupUntilCleared(s: Responder, from: uint32, channel: nat, id: uint32, id2: uint32)
    requires DmEligible(s, from)
    ensures var sent := HandleDM(s, from, channel, id).state;
      var acked := CheckForAck(sent, RoutingErrorNone, id);
      && from in acked.heardInDM
      && !acked.waitingForAck
      && HandleDM(acked, from, channel, id2) == Silent(acked)
      && HandleDM(ClearHeardInDM(acked), from, channel, id2).reply.Some?
  {
  }

  /** Channel dedup: the same for channel replies. A clear makes `from`
      eligible again once the cooldown has passed and the cap allows it. */
  lemma ChannelDedupUntilCleared(s: Responder, from: uint32, now: uint32, later: uint32,
                                 name: string, id: uint32, id2: uint32)
    requires ChannelEligible(s, from, 0, now)
    requires s.channelName == name
    requires s.responsesInChannelToday < MaxResponsesChannelDaily
    requires now != 0 && Sub32(later, now) >= CooldownChannelMinutes * MsInMinute
    ensures var sent := HandleChannel(s, from, 0, now, name, id).state;
      var acked := CheckForAck(sent, RoutingErrorNone, id);
      && from in acked.heardInChannel
      && HandleChannel(acked, from, 0, later, name, id2) == Silent(acked)
      && HandleChannel(ClearHeardInChannel(acked), from, 0, later, name, id2).reply.Some?
  {
  }

  /** A reply that is sent but never acknowledged does not suppress the next
      one: the recipient joins a dedup set only on a successful ack. */
  lemma UnackedReplyDoesNotSuppress(s: Responder, from: uint32, channel: nat, id: uint32, id2: uint32)
    requires DmEligible(s, from)
    ensures var sent := HandleDM(s, from, channel, id).state;
      HandleDM(sent, from, channel, id2).reply.Some?
  {
  }

  /** A periodic channel clear in `runOnce` re-admits every node. */
  lemma ClockClearsChannelDedup(s: Responder, now: uint32, name: string)
    requires s.config.enabledInChannel
    requires Due(now, s.prevClearChannel, ClearChannelInterval(s.config.repeatHours, name == ""))
    ensures RunOnce(s, now, name).state.heardInChannel == {}
    ensures RunOnce(s, now, name).state.prevClearChannel == now
  {
  }

  // ---------------------------------------------------------------------
  // Cooldown
  // ---------------------------------------------------------------------

  /** Two channel messages closer together than the cooldown produce one
      reply, also when the clock wrapped in between. */
  lemma CooldownBlocksSecondReply(s: Responder, from: uint32, from2: uint32, now: uint32, d: uint32,
                                  name: string, id: uint32, id2: uint32)
    requires ChannelEligible(s, from, 0, now) && now != 0
    requires d < CooldownChannelMinutes * MsInMinute
    ensures var sent := HandleChannel(s, from, 0, now, name, id).state;
      HandleChannel(sent, from2, 0, Advance(now, d), name, id2) == Silent(sent)
  {
    ElapsedAcrossWrap(now, d);
  }

  /** The sentinel collides with a real time stamp: a channel reply sent when
      the clock reads 0 records 0, which means "no previous reply", so the
      next eligible message is answered at once. */
  lemma ReplyAtZeroSkipsCooldown(s: Responder, from: uint32, from2: uint32, name: string,
                                 id: uint32, id2: uint32)
    requires ChannelEligible(s, from, 0, 0)
    requires s.responsesInChannelToday < MaxResponsesChannelDaily
    requires from2 != OwnNode && from2 !in s.heardInChannel
    requires IsNodePermitted(s.config.permittedNodes, from2)
    ensures var sent := HandleChannel(s, from, 0, 0, name, id).state;
      && sent.prevInChannelResponseMs == 0
      && HandleChannel(sent, from2, 0, 1, name, id2).reply.Some?
  {
  }

  // ---------------------------------------------------------------------
  // Outstanding replies and acks
  // ---------------------------------------------------------------------

  /** No single-reply guard: while a DM reply to `a` awaits its ack, a DM from
      `b` is answered too, and the record of the first reply is overwritten.
      Two replies are then outstanding with no ack received, and the ack of
      the first is ignored, so `a` never joins the dedup set. */
  lemma SecondReplySupersedesFirst(s: Responder, a: uint32, b: uint32, channel: nat,
                                   idA: uint32, idB: uint32)
    requires DmEligible(s, a) && DmEligible(s, b)
    requires a != b && idA != idB
    ensures var first := HandleDM(s, a, channel, idA);
      var second := HandleDM(first.state, b, channel, idB);
      && first.reply.Some? && first.state.waitingForAck
      && second.reply.Some?
      && second.state.outgoingId == idB && second.state.respondingTo == b
      && CheckForAck(second.state, RoutingErrorNone, idA) == second.state
      && a !in CheckForAck(CheckForAck(second.state, RoutingErrorNone, idA), RoutingErrorNone, idB).heardInDM
  {
  }

  /** A repeated ack is dropped before it reaches the module: once a DM reply
      is acknowledged, `waitingForAck` is false, so `wantPacket` refuses a
      second copy of the ack and a DM clear is not undone by it. Handed to
      `handleReceived` directly, the same packet would put the sender back into
      the dedup set. */
  lemma RepeatedAckIgnored(s: Responder, from: uint32, channel: nat, id: uint32, env: Env)
    requires DmEligible(s, from)
    ensures var ack := Receive(Routing(RoutingErrorNone, id), env);
      var sent := HandleDM(s, from, channel, id).state;
      var acked := Next(sent, ack).state;
      var cleared := ClearHeardInDM(acked);
      && from in acked.heardInDM
      && Next(cleared, ack) == Silent(cleared)
      && from !in Next(cleared, ack).state.heardInDM
      && from in HandleReceived(cleared, ack.p, env).state.heardInDM
  {
  }

  // ---------------------------------------------------------------------
  // Channel change
  // ---------------------------------------------------------------------

  /** The channel-change clear comes after the dedup test: a node heard
      under the old channel name is still refused, and the cached name is not
      even updated on that message. */
  lemma ChannelChangeClearComesLate(s: Responder, from: uint32, now: uint32, name: string, id: uint32)
    requires s.channelName != name
    requires from in s.heardInChannel
    ensures HandleChannel(s, from, 0, now, name, id) == Silent(s)
  {
  }

  /** Once a channel message passes every guard, the cached name is the
      current one, and a name change emptied the channel dedup set first. */
  lemma ChannelChangeResetsDedup(s: Responder, from: uint32, now: uint32, name: string, id: uint32)
    requires ChannelEligible(s, from, 0, now)
    requires s.channelName != name
    ensures var o := HandleChannel(s, from, 0, now, name, id);
      o.state.channelName == name && o.state.heardInChannel == {}
  {
  }
}

=== FILE: scheduler.dfy ===
/** The autoresponder's scheduled tasks: `runOnce`
    (src/modules/AutoresponderModule.cpp:561-628) as a function of the clock
    reading `now` and the three timestamps it keeps in `static` variables.

    Three periodic tasks fire when `now - prev > interval` in unsigned 32-bit
    arithmetic, which is wrap-safe, and then set `prev = now`. Two single-shot
    expiries compare the absolute clock `now > deadline`, which is not. Every
    interval multiplies an "hours" or "minutes" setting by MsInMinute, as the
    source does.

    The channel-clear interval is computed in the source in 32 bits, so a
    large `repeat_hours` wraps around and undercuts the floor the interval is
    meant to keep (`ChannelFloorUndercutAsWritten`). `ClearChannelInterval` is
    the corrected, unbounded product, used by `RunOnce`; it agrees with the
    source's value for every `repeat_hours` up to MaxUnwrappedHours. */
module Scheduler {
  import opened Types
  import opened Autoresponder

  const IntervalClearDM: nat := MsInMinute * RepeatDmMinutes

  /** Labelled "daily" in the source, but 24 times MsInMinute. */
  const IntervalDailyTasks: nat := MsInMinute * 24

  /** Delay until the next call, returned by `runOnce`. */
  const RunPeriodMs: nat := 60 * 1000

  /** The largest `repeat_hours` whose product with MsInMinute fits 32 bits. */
  const MaxUnwrappedHours: nat := 71582

  /** The floor the user's `repeat_hours` cannot undercut. */
  function MinRepeatChannelHours(primaryPublic: bool): nat
  {
    if primaryPublic then MinRepeatPubChanHours else MinRepeatPrivChanHours
  }

  function Max(a: nat, b: nat): nat
  {
    if a >= b then a else b
  }

  /** `intervalClearChannel` as the source computes it: in 32 bits. */
  function ClearChannelIntervalAsWritten(repeatHours: uint32, primaryPublic: bool): (r: uint32)
    ensures r == ClearChannelInterval(repeatHours, primaryPublic) % TwoTo32
  {
    Mul32(MsInMinute, Max(repeatHours, MinRepeatChannelHours(primaryPublic)))
  }

  /** `intervalClearChannel` without the wrap-around: never shorter than the
      floor for the channel's kind, and longer only as the user asks. */
  function ClearChannelInterval(repeatHours: uint32, primaryPublic: bool): (r: nat)
    ensures r >= MinRepeatChannelHours(primaryPublic) * MsInMinute
    ensures r >= repeatHours * MsInMinute
    ensures r == repeatHours * MsInMinute || r == MinRepeatChannelHours(primaryPublic) * MsInMinute
  {
    MsInMinute * Max(repeatHours, MinRepeatChannelHours(primaryPublic))
  }

  /** The two agree whenever the product fits 32 bits. */
  lemma ClearChannelIntervalAgrees(repeatHours: uint32, primaryPublic: bool)
    requires repeatHours <= MaxUnwrappedHours
    ensures ClearChannelIntervalAsWritten(repeatHours, primaryPublic) == ClearChannelInterval(repeatHours, primaryPublic)
  {
  }

  /** `repeat_hours = 71583` on a public channel: the 32-bit product wraps to
      12704 ms, far below the 8-minute floor. Since `runOnce` runs once a
      minute, the source would clear the channel dedup set on every tick
      (`UndercutClearsEveryTick`) instead of at most every 8 minutes. */
  lemma ChannelFloorUndercutAsWritten()
    ensures ClearChannelIntervalAsWritten(71583, true) == 12704
    ensures ClearChannelIntervalAsWritten(71583, true) < MinRepeatPubChanHours * MsInMinute
  {
  }

  /** With the wrapped interval of `ChannelFloorUndercutAsWritten`, one
      `runOnce` period after the last clear the next clear is already due,
      whatever the clock reads; the corrected interval is not yet due then. */
  lemma UndercutClearsEveryTick(prev: uint32)
    ensures Due(Advance(prev, RunPeriodMs), prev, ClearChannelIntervalAsWritten(71583, true))
    ensures !Due(Advance(prev, RunPeriodMs), prev, ClearChannelInterval(71583, true))
  {
    ChannelFloorUndercutAsWritten();
    ElapsedAcrossWrap(prev, RunPeriodMs);
  }

  /** The channel expiry, in the source's "hours": `expiration_hours` when it
      lies strictly between 0 and 72, otherwise 72. A setting of 0 therefore
      means the maximum, not "never". */
  function EffectiveExpirationHours(expirationHours: uint32): (r: nat)
    ensures 0 < r <= MaxExpirationChannelHours
    ensures 0 < expirationHours < MaxExpirationChannelHours ==> r == expirationHours
    ensures expirationHours == 0 || expirationHours >= MaxExpirationChannelHours ==> r == MaxExpirationChannelHours
  {
    if expirationHours > 0 && expirationHours < MaxExpirationChannelHours then expirationHours
    else MaxExpirationChannelHours
  }

  /** `handleExpiredChannel`: channel replies off, boot counter zeroed. */
  function HandleExpiredChannel(c: Config): (r: Config)
    ensures !r.enabledInChannel && r.bootcount == 0
    ensures r.(enabledInChannel := c.enabledInChannel, bootcount := c.bootcount) == c
  {
    c.(enabledInChannel := false, bootcount := 0)
  }

  /** `handleExpiredDM`: DM replies off, boot counter zeroed. */
  function HandleExpiredDM(c: Config): (r: Config)
    ensures !r.enabledDm && r.bootcount == 0
    ensures r.(enabledDm := c.enabledDm, bootcount := c.bootcount) == c
  {
    c.(enabledDm := false, bootcount := 0)
  }

  /** Whether a periodic task is due: strictly more than `interval` since `prev`. */
  predicate Due(now: uint32, prev: uint32, interval: nat)
  {
    Sub32(now, prev) > interval
  }

  /** Whether the channel expiry fires on this tick. */
  predicate ChannelExpires(c: Config, now: uint32)
  {
    c.enabledInChannel && now > EffectiveExpirationHours(c.expirationHours) * MsInMinute
  }

  /** Whether the DM expiry fires on this tick. Its deadline is the 32-bit
      product of `expiration_hours` and MsInMinute, as written. */
  predicate DmExpires(c: Config, now: uint32)
  {
    c.enabledDm && c.shouldDmExpire && c.expirationHours > 0
    && now > Mul32(c.expirationHours, MsInMinute)
  }

  /** The three periodic tasks of `runOnce` (AutoresponderModule.cpp:578-601),
      in the source's order. */
  function PeriodicTasks(s: Responder, now: uint32, primaryPublic: bool): (r: Responder)
    // DM dedup clear: fires exactly when DM replies are on and it is due.
    ensures var fire := s.config.enabledDm && Due(now, s.prevClearDM, IntervalClearDM);
      && r.heardInDM == (if fire then {} else s.heardInDM)
      && r.prevClearDM == (if fire then now else s.prevClearDM)
    // Channel dedup clear: likewise, with the floored interval.
    ensures var fire := s.config.enabledInChannel
                        && Due(now, s.prevClearChannel, ClearChannelInterval(s.config.repeatHours, primaryPublic));
      && r.heardInChannel == (if fire then {} else s.heardInChannel)
      && r.prevClearChannel == (if fire then now else s.prevClearChannel)
    // Daily counter reset: fires whenever due, enabled or not.
    ensures var fire := Due(now, s.prevDailyTasks, IntervalDailyTasks);
      && r.responsesInChannelToday == (if fire then 0 else s.responsesInChannelToday)
      && r.prevDailyTasks == (if fire then now else s.prevDailyTasks)
    // Nothing else changes.
    ensures r.(heardInDM := s.heardInDM, heardInChannel := s.heardInChannel,
               responsesInChannelToday := s.responsesInChannelToday,
               prevClearDM := s.prevClearDM, prevClearChannel := s.prevClearChannel,
               prevDailyTasks := s.prevDailyTasks) == s
  {
    var c := s.config;
    var s1 := if c.enabledDm && Due(now, s.prevClearDM, IntervalClearDM)
              then ClearHeardInDM(s).(prevClearDM := now) else s;
    var s2 := if c.enabledInChannel && Due(now, s1.prevClearChannel, ClearChannelInterval(c.repeatHours, primaryPublic))
              then ClearHeardInChannel(s1).(prevClearChannel := now) else s1;
    if Due(now, s2.prevDailyTasks, IntervalDailyTasks)
    then HandleDailyTasks(s2).(prevDailyTasks := now) else s2
  }

  datatype Expiry = Expiry(config: Config, saved: bool)

  /** The two single-shot expiries of `runOnce` (AutoresponderModule.cpp:603-624).
      The DM test reads `enabled_dm` after the channel expiry, which leaves it
      untouched. */
  function Expiries(c: Config, now: uint32): (r: Expiry)
    ensures r.config.enabledInChannel == (c.enabledInChannel && !ChannelExpires(c, now))
    ensures r.config.enabledDm == (c.enabledDm && !DmExpires(c, now))
    ensures r.saved <==> ChannelExpires(c, now) || DmExpires(c, now)
    ensures r.config.bootcount == (if r.saved then 0 else c.bootcount)
    ensures r.config.(enabledInChannel := c.enabledInChannel, enabledDm := c.enabledDm,
                      bootcount := c.bootcount) == c
  {
    var expireChannel := ChannelExpires(c, now);
    var c1 := if expireChannel then HandleExpiredChannel(c) else c;
    var expireDm := DmExpires(c1, now);
    assert expireDm == DmExpires(c, now);
    var c2 := if expireDm then HandleExpiredDM(c1) else c1;
    Expiry(c2, expireChannel || expireDm)
  }

  datatype Tick = Tick(state: Responder, saved: bool, delayMs: nat)

  /** `runOnce`, with the channel-clear interval corrected; `primaryName` is
      the primary channel's name, empty for the public default channel. The
      periodic tasks run first and see the configuration before any expiry. */
  function RunOnce(s: Responder, now: uint32, primaryName: string): (r: Tick)
    ensures r.state.config == Expiries(s.config, now).config
    ensures r.saved == Expiries(s.config, now).saved
    ensures r.state.(config := s.config) == PeriodicTasks(s, now, primaryName == "")
    ensures r.delayMs == RunPeriodMs
  {
    var periodic := PeriodicTasks(s, now, primaryName == "");
    var expiry := Expiries(s.config, now);
    Tick(periodic.(config := expiry.config), expiry.saved, RunPeriodMs)
  }
}

=== FILE: settings.dfy ===
/** Configuration changes of the autoresponder: the `set*` setters
    (AutoresponderModule.cpp:184-341), the boot-count circuit breaker
    (`bootCounting`, AutoresponderModule.cpp:520-550) and start-up (the
    constructor, AutoresponderModule.cpp:42-75).

    Each operation that calls `saveData` in the source reports it through a
    `saved` flag; the caller persists the resulting configuration with the
    record store. A `reboot` flag records a call to `reboot()`, which only
    schedules a restart. */
module Settings {
  import opened Types
  import NodeIds
  import opened Autoresponder

  datatype Update = Update(config: Config, saved: bool, reboot: bool)

  /** A configuration command, after the admin text has been split into
      tokens and its numbers and booleans parsed. */
  datatype Command =
    | SetMessage(text: string)
    | SetPermittedNodes(raw: string)
    | SetEnabled(both: bool)
    | SetEnabledDM(dm: bool)
    | SetEnabledChannel(inChannel: bool)
    | SetRepeatHours(repeatHours: uint32)
    | SetExpirationHours(expirationHours: uint32)
    | SetShouldDmExpire(shouldExpire: bool)

  /** `strcpy` into `message[200]` needs the text and its terminator to fit.
      The buffer counts bytes and `|text|` counts string elements, so the
      bound matches the source when each element stands for one byte, as for
      ASCII text. */
  predicate Fits(cmd: Command)
  {
    cmd.SetMessage? ==> |cmd.text| < MessageCapacity
  }

  /** The commands that also zero the boot counter. */
  predicate ResetsBootCount(cmd: Command)
  {
    (cmd.SetMessage? && cmd.text != "") || cmd.SetPermittedNodes?
  }

  /** The configuration after `cmd`, were every setter to run. */
  function Assign(c: Config, cmd: Command): Config
    requires Fits(cmd)
  {
    match cmd
    case SetMessage(text) => if text == "" then c else c.(message := text)
    case SetPermittedNodes(raw) => c.(permittedNodes := NodeIds.ParseNodeIds(raw))
    case SetEnabled(b) => c.(enabledDm := b, enabledInChannel := b)
    case SetEnabledDM(b) => c.(enabledDm := b)
    case SetEnabledChannel(b) => c.(enabledInChannel := b)
    case SetRepeatHours(h) => c.(repeatHours := h)
    case SetExpirationHours(h) => c.(expirationHours := h)
    case SetShouldDmExpire(b) => c.(shouldDmExpire := b)
  }

  /** The setters, dispatched on the command.

      `setMessage` ignores an empty text; `setMessage` and `setPermittedNodes`
      zero the boot counter and do not restart; `setEnabled(false)` saves
      without restarting; every other setter saves and restarts. No setter
      zeroes the boot counter on enabling. */
  function ApplyCommand(c: Config, cmd: Command): (r: Update)
    requires Fits(cmd)
    ensures r.saved <==> !(cmd.SetMessage? && cmd.text == "")
    ensures r.reboot <==> !(cmd.SetMessage? || cmd.SetPermittedNodes? || cmd == SetEnabled(false))
    ensures r.config.bootcount == (if ResetsBootCount(cmd) then 0 else c.bootcount)
    ensures r.config.(bootcount := c.bootcount) == Assign(c, cmd)
    ensures cmd.SetPermittedNodes? ==>
      r.config.permittedNodes == NodeIds.Take(NodeIds.HexGroups(cmd.raw), NodeIds.Capacity)
    ensures |r.config.permittedNodes| <= NodeIds.Capacity || r.config.permittedNodes == c.permittedNodes
  {
    match cmd
    case SetMessage(text) =>
      if text == "" then Update(c, false, false)
      else Update(c.(message := text, bootcount := 0), true, false)
    case SetPermittedNodes(raw) =>
      Update(c.(permittedNodes := NodeIds.ParseNodeIds(raw), bootcount := 0), true, false)
    case SetEnabled(b) => Update(c.(enabledDm := b, enabledInChannel := b), true, b)
    case SetEnabledDM(b) => Update(c.(enabledDm := b), true, true)
    case SetEnabledChannel(b) => Update(c.(enabledInChannel := b), true, true)
    case SetRepeatHours(h) => Update(c.(repeatHours := h), true, true)
    case SetExpirationHours(h) => Update(c.(expirationHours := h), true, true)
    case SetShouldDmExpire(b) => Update(c.(shouldDmExpire := b), true, true)
  }

  // ---------------------------------------------------------------------
  // Boot-count circuit breaker
  // ---------------------------------------------------------------------

  /** Whether `bootCounting` counts at all: channel replies on, or DM replies
      on and set to expire. */
  predicate CountsBoots(c: Config)
  {
    c.enabledInChannel || (c.enabledDm && c.shouldDmExpire)
  }

  /** `bootCounting` (AutoresponderModule.cpp:520-550). Below the threshold the
      counter goes up; at or above it, channel replies (and DM replies when
      they expire) are switched off and the counter returns to 0. */
  function BootCounting(c: Config): (r: Update)
    ensures !CountsBoots(c) ==> r == Update(c, false, false)
    ensures CountsBoots(c) ==> r.saved && !r.reboot
    ensures CountsBoots(c) && c.bootcount < ExpireAfterBootNum ==>
      r.config == c.(bootcount := c.bootcount + 1)
    ensures CountsBoots(c) && c.bootcount >= ExpireAfterBootNum ==>
      && r.config.bootcount == 0
      && !r.config.enabledInChannel
      && r.config.enabledDm == (c.enabledDm && !c.shouldDmExpire)
      && r.config.(enabledInChannel := c.enabledInChannel, enabledDm := c.enabledDm, bootcount := c.bootcount) == c
    ensures c.bootcount <= ExpireAfterBootNum ==> r.config.bootcount <= ExpireAfterBootNum
  {
    if !c.enabledInChannel && (!c.enabledDm || !c.shouldDmExpire) then Update(c, false, false)
    else if c.bootcount < ExpireAfterBootNum then Update(c.(bootcount := c.bootcount + 1), true, false)
    else
      var off := c.(enabledInChannel := false, bootcount := 0);
      Update(if c.shouldDmExpire then off.(enabledDm := false) else off, true, false)
  }

  /** The configuration after `n` consecutive boots. */
  function Boots(c: Config, n: nat): Config
  {
    if n == 0 then c else BootCounting(Boots(c, n - 1)).config
  }

  /** Starting from a freshly reset counter with channel replies on, the first
      five boots only count, and the configuration is otherwise unchanged. */
  lemma {:induction false} BootsBelowThreshold(c: Config, n: nat)
    requires c.enabledInChannel && c.bootcount == 0
    requires n <= ExpireAfterBootNum
    ensures Boots(c, n) == c.(bootcount := n)
  {
    if n > 0 {
      BootsBelowThreshold(c, n - 1);
    }
  }

  /** The breaker trips on the sixth counted boot (not the fifth): channel
      replies go off, DM replies go off exactly when they are set to expire,
      and the counter is back at 0. */
  lemma BreakerTripsOnSixthBoot(c: Config)
    requires c.enabledInChannel && c.bootcount == 0
    ensures Boots(c, ExpireAfterBootNum).enabledInChannel
    ensures var after := Boots(c, ExpireAfterBootNum + 1);
      && !after.enabledInChannel
      && after.enabledDm == (c.enabledDm && !c.shouldDmExpire)
      && after.bootcount == 0
  {
    BootsBelowThreshold(c, ExpireAfterBootNum);
  }

  // ---------------------------------------------------------------------
  // Start-up
  // ---------------------------------------------------------------------

  datatype Started = Started(state: Responder, saved: bool)

  /** The constructor, given the configuration `loadData` produced and the
      primary channel's name. `outgoingId`, `respondingTo` and `wasDM` have no
      initialiser in the source; whatever they hold is passed in. */
  function Start(loaded: Config, primaryName: string,
                 outgoingId: uint32, respondingTo: uint32, wasDM: bool): (r: Started)
    ensures !r.state.waitingForAck
    ensures r.state.responsesInChannelToday == 0 && r.state.prevInChannelResponseMs == 0
    ensures r.state.heardInDM == {} && r.state.heardInChannel == {}
    ensures r.state.prevClearDM == 0 && r.state.prevClearChannel == 0 && r.state.prevDailyTasks == 0
    ensures loaded.enabledDm || loaded.enabledInChannel ==>
      && r.state.config == BootCounting(loaded).config
      && r.saved == BootCounting(loaded).saved
      && r.state.channelName == primaryName
    ensures !(loaded.enabledDm || loaded.enabledInChannel) ==>
      r.state.config == loaded && !r.saved && r.state.channelName == ""
  {
    var initial := Responder(loaded, false, outgoingId, respondingTo, wasDM, "", {}, {}, 0, 0, 0, 0, 0);
    if loaded.enabledDm || loaded.enabledInChannel then
      var boot := BootCounting(loaded);
      Started(initial.(config := boot.config, channelName := primaryName), boot.saved)
    else Started(initial, false)
  }
}

=== FILE: store.dfy ===
/** The integrity-checked record store shared by the DIY feature modules
    (src/mesh/DIYModule.h, templates `loadData<T>` and `saveData<T>`).

    A record is `sizeof(T)` raw bytes. On flash it is stored as
    `[record bytes][4-byte hash]`, the hash being `getDataHash` over the record
    bytes, written from memory in the device's little-endian byte order.
    `getDataHash` is not part of this model: every operation takes it as the
    parameter `hash`, about which nothing is assumed.

    The filesystem is a map from path to content plus the set of existing
    directories. Whether an `open`, `remove` or rename succeeds is decided by the
    flash hardware, so each operation takes those outcomes as boolean parameters. */
module Store {
  import opened Types

  datatype FileSystem = FileSystem(files: map<string, Bytes>, dirs: set<string>)

  const SaveDirectory: string := "/DIYModules"

  /** Where module `name` keeps its record. */
  function DataPath(name: string): string
  {
    SaveDirectory + "/" + name + ".data"
  }

  /** The staging sibling a save writes before renaming it into place. */
  function TmpPath(name: string): string
  {
    DataPath(name) + ".tmp"
  }

  /** No module's staging file is ever any module's data file. */
  lemma StagingNeverCollides(name: string, other: string)
    ensures TmpPath(name) != DataPath(other)
  {
    var t, d := TmpPath(name), DataPath(other);
    assert t[|t| - 1] == 'p';
    assert d[|d| - 1] == 'a';
  }

  /** Two modules with different names never share a data file. */
  lemma DataPathInjective(name: string, other: string)
    requires DataPath(name) == DataPath(other)
    ensures name == other
  {
    var d := DataPath(name);
    var prefix := |SaveDirectory + "/"|;
    assert |name| == |other|;
    assert name == d[prefix..prefix + |name|];
    assert other == DataPath(other)[prefix..prefix + |other|];
  }

  // ---------------------------------------------------------------------
  // The 4-byte hash field
  // ---------------------------------------------------------------------

  /** The bytes of a `uint32_t` in memory, least significant first. */
  function EncodeLe32(x: uint32): (b: Bytes)
    ensures |b| == 4
  {
    var q1 := x / 0x100;
    var q2 := q1 / 0x100;
    [(x % 0x100), (q1 % 0x100), (q2 % 0x100), (q2 / 0x100)]
  }

  /** The `uint32_t` whose memory image is `b`. */
  function DecodeLe32(b: Bytes): uint32
    requires |b| == 4
  {
    b[0] as int + 0x100 * (b[1] as int + 0x100 * (b[2] as int + 0x100 * b[3] as int))
  }

  lemma {:induction false} DecodeEncodeLe32(x: uint32)
    ensures DecodeLe32(EncodeLe32(x)) == x
  {
    var b := EncodeLe32(x);
    var q1 := x / 0x100;
    var q2 := q1 / 0x100;
    var q3 := q2 / 0x100;
    var d0, d1, d2 := x % 0x100, q1 % 0x100, q2 % 0x100;
    assert b[0] == d0 && b[1] == d1 && b[2] == d2 && b[3] == q3;
    assert x == q1 * 0x100 + d0;
    assert q1 == q2 * 0x100 + d1;
    assert q2 == q3 * 0x100 + d2;
    calc {
      DecodeLe32(b);
      d0 + 0x100 * (d1 + 0x100 * (d2 + 0x100 * q3));
      d0 + 0x100 * (d1 + 0x100 * q2);
      d0 + 0x100 * q1;
      x;
    }
  }

  /** Distinct hash values are stored as distinct byte patterns. */
  lemma EncodeLe32Injective(x: uint32, y: uint32)
    requires EncodeLe32(x) == EncodeLe32(y)
    ensures x == y
  {
    DecodeEncodeLe32(x);
    DecodeEncodeLe32(y);
  }

  // ---------------------------------------------------------------------
  // Reading
  // ---------------------------------------------------------------------

  /** `readBytes(dst, |dst|)` from a file holding `src`: the bytes the file
      has are copied over the front of `dst`; if the file is short, the rest of
      `dst` keeps what it held before. */
  function Overlay(dst: Bytes, src: Bytes): (r: Bytes)
    ensures |r| == |dst|
    ensures forall i :: 0 <= i < |dst| ==> r[i] == (if i < |src| then src[i] else dst[i])
  {
    if |src| < |dst| then src + dst[|src|..] else src[..|dst|]
  }

  /** The hash field as `loadData` reads it: `savedHash` starts at 0 and takes
      whatever of the 4 bytes after the record the file holds. */
  function StoredHash(content: Bytes, size: nat): (h: uint32)
    // A complete hash field is read as written, and bytes after it are ignored.
    ensures size + 4 <= |content| ==> h == DecodeLe32(content[size..size + 4])
    // A file that ends at or before the record's end leaves the hash 0.
    ensures |content| <= size ==> h == 0
  {
    var rest := if size <= |content| then content[size..] else [];
    DecodeLe32(Overlay([0, 0, 0, 0], rest))
  }

  /** The complete file a save writes for `record`. */
  function StoredFile(record: Bytes, hash: Bytes -> uint32): Bytes
  {
    record + EncodeLe32(hash(record))
  }

  datatype LoadStatus = Missing | Unopenable | Intact | Corrupt

  /** `status` says which branch `loadData` took; `data` is `*data` afterwards. */
  datatype Loaded = Loaded(status: LoadStatus, data: Bytes)

  /** `loadData<T>(data)` with `*data` holding `data` beforehand and `blank`
      the bytes of a default-constructed `T` (DIYModule.h:46-93). */
  function LoadData(fs: FileSystem, name: string, data: Bytes, blank: Bytes,
                    hash: Bytes -> uint32, opens: bool): (r: Loaded)
    requires |blank| == |data|
    ensures |r.data| == |data|
    ensures r.status in {Missing, Unopenable} <==> !(DataPath(name) in fs.files && opens)
    ensures r.status in {Missing, Unopenable} ==> r.data == data
    ensures r.status == Missing <==> DataPath(name) !in fs.files
    ensures r.status == Corrupt ==> r.data == blank
    ensures r.status == Intact ==>
      var content := fs.files[DataPath(name)];
      && r.data == Overlay(data, content)
      && StoredHash(content, |data|) == hash(r.data)
    ensures r.status == Corrupt ==>
      var content := fs.files[DataPath(name)];
      StoredHash(content, |data|) != hash(Overlay(data, content))
  {
    var path := DataPath(name);
    if path !in fs.files then Loaded(Missing, data)
    else if !opens then Loaded(Unopenable, data)
    else
      var content := fs.files[path];
      var read := Overlay(data, content);
      if StoredHash(content, |data|) != hash(read) then Loaded(Corrupt, blank)
      else Loaded(Intact, read)
  }

  // ---------------------------------------------------------------------
  // Writing
  // ---------------------------------------------------------------------

  datatype SaveStatus = Saved | TmpUnopenable | RenameFailed

  datatype Save = Save(status: SaveStatus, fs: FileSystem)

  /** True when `p` has the same presence and content in both maps. */
  predicate Unchanged(before: map<string, Bytes>, after: map<string, Bytes>, p: string)
  {
    (p in before <==> p in after) && (p in before ==> before[p] == after[p])
  }

  /** The directory is created if absent (DIYModule.h:105-106). */
  function EnsureDirectory(fs: FileSystem): (r: FileSystem)
    ensures r.files == fs.files
    ensures r.dirs == fs.dirs + {SaveDirectory}
  {
    if SaveDirectory in fs.dirs then fs else fs.(dirs := fs.dirs + {SaveDirectory})
  }

  /** The states the filesystem passes through during `saveData<T>(data)`
      (DIYModule.h:95-151): after the directory check, after the staging file is
      written, after the old file is removed, after the rename. The list stops
      early where the source stops. */
  function SaveSteps(fs: FileSystem, name: string, data: Bytes, hash: Bytes -> uint32,
                     opens: bool, removes: bool, renames: bool): (steps: seq<FileSystem>)
    ensures 1 <= |steps| <= 4
    ensures |steps| == 1 <==> !opens
    ensures steps[0] == EnsureDirectory(fs)
    ensures opens ==> |steps| >= 3
    ensures |steps| == 4 <==> opens && renames
    // The staging write touches only the staging path.
    ensures opens ==> steps[1] == steps[0].(files := fs.files[TmpPath(name) := StoredFile(data, hash)])
    // The removal deletes the data path if it exists and the removal succeeds.
    ensures opens ==> steps[2] == steps[1].(files :=
      if DataPath(name) in steps[1].files && removes then steps[1].files - {DataPath(name)}
      else steps[1].files)
    // The rename moves the complete staged file to the data path.
    ensures opens && renames ==>
      steps[3] == steps[2].(files := (steps[2].files - {TmpPath(name)})[DataPath(name) := StoredFile(data, hash)])
  {
    var path, tmp := DataPath(name), TmpPath(name);
    var s0 := EnsureDirectory(fs);
    if !opens then [s0]
    else
      var s1 := s0.(files := s0.files[tmp := StoredFile(data, hash)]);
      var s2 := if path in s1.files && removes then s1.(files := s1.files - {path}) else s1;
      if !renames then [s0, s1, s2]
      else [s0, s1, s2, s2.(files := (s2.files - {tmp})[path := s2.files[tmp]])]
  }

  /** `saveData<T>(data)`: the final filesystem and how the save ended. */
  function SaveData(fs: FileSystem, name: string, data: Bytes, hash: Bytes -> uint32,
                    opens: bool, removes: bool, renames: bool): (r: Save)
    ensures r.fs.dirs == fs.dirs + {SaveDirectory}
    // The staging file could not be opened: nothing but the directory changes,
    // in particular the existing record is untouched.
    ensures !opens ==> r.status == TmpUnopenable && r.fs.files == fs.files
    // Success: the target holds exactly the record followed by its hash, the
    // staging file is gone, and no other path changed.
    ensures opens && renames ==>
      && r.status == Saved
      && DataPath(name) in r.fs.files
      && r.fs.files[DataPath(name)] == data + EncodeLe32(hash(data))
      && TmpPath(name) !in r.fs.files
      && forall p :: p != DataPath(name) && p != TmpPath(name) ==> Unchanged(fs.files, r.fs.files, p)
    // The rename failed: the new file stays at the staging path, and the old
    // record is gone unless its removal failed too.
    ensures opens && !renames ==>
      && r.status == RenameFailed
      && TmpPath(name) in r.fs.files
      && r.fs.files[TmpPath(name)] == StoredFile(data, hash)
      && (removes ==> DataPath(name) !in r.fs.files)
      && (!removes ==> Unchanged(fs.files, r.fs.files, DataPath(name)))
      && forall p :: p != DataPath(name) && p != TmpPath(name) ==> Unchanged(fs.files, r.fs.files, p)
  {
    StagingNeverCollides(name, name);
    var steps := SaveSteps(fs, name, data, hash, opens, removes, renames);
    var last := steps[|steps| - 1];
    if !opens then Save(TmpUnopenable, last)
    else if !renames then Save(RenameFailed, last)
    else Save(Saved, last)
  }

  // ---------------------------------------------------------------------
  // Properties
  // ---------------------------------------------------------------------

  /** Round trip: a successful save followed by a load with no filesystem
      change in between yields the saved record, byte for byte. */
  lemma SaveLoadRoundTrip(fs: FileSystem, name: string, x: Bytes, data: Bytes, blank: Bytes,
                          hash: Bytes -> uint32, removes: bool)
    requires |data| == |x| && |blank| == |x|
    ensures var saved := SaveData(fs, name, x, hash, true, removes, true);
      LoadData(saved.fs, name, data, blank, hash, true) == Loaded(Intact, x)
  {
    var saved := SaveData(fs, name, x, hash, true, removes, true);
    var content := saved.fs.files[DataPath(name)];
    assert content[..|x|] == x;
    assert content[|x|..] == EncodeLe32(hash(x));
    assert Overlay(data, content) == x;
    assert Overlay([0, 0, 0, 0], content[|x|..]) == EncodeLe32(hash(x));
    DecodeEncodeLe32(hash(x));
  }

  /** Tamper detection: if the record region of a stored file is replaced by
      bytes whose hash differs from the stored one, the load yields the default
      record and never the tampered bytes. */
  lemma TamperedRecordRejected(fs: FileSystem, name: string, x: Bytes, y: Bytes,
                               data: Bytes, blank: Bytes, hash: Bytes -> uint32)
    requires |y| == |x| && |data| == |x| && |blank| == |x|
    requires hash(y) != hash(x)
    requires DataPath(name) in fs.files
    requires fs.files[DataPath(name)] == y + EncodeLe32(hash(x))
    ensures LoadData(fs, name, data, blank, hash, true) == Loaded(Corrupt, blank)
  {
    var content := fs.files[DataPath(name)];
    assert Overlay(data, content) == y;
    assert content[|x|..] == EncodeLe32(hash(x));
    assert Overlay([0, 0, 0, 0], content[|x|..]) == EncodeLe32(hash(x));
    DecodeEncodeLe32(hash(x));
  }

  /** The same for the hash field: a stored hash changed to any other value
      makes the load yield the default record. */
  lemma TamperedHashRejected(fs: FileSystem, name: string, x: Bytes, h: uint32,
                             data: Bytes, blank: Bytes, hash: Bytes -> uint32)
    requires |data| == |x| && |blank| == |x|
    requires h != hash(x)
    requires DataPath(name) in fs.files
    requires fs.files[DataPath(name)] == x + EncodeLe32(h)
    ensures LoadData(fs, name, data, blank, hash, true) == Loaded(Corrupt, blank)
  {
    var content := fs.files[DataPath(name)];
    assert Overlay(data, content) == x;
    assert content[|x|..] == EncodeLe32(h);
    assert Overlay([0, 0, 0, 0], content[|x|..]) == EncodeLe32(h);
    DecodeEncodeLe32(h);
  }

  /** No partial write is ever visible at the data path: at every step of a
      save, the data path holds the old content, the complete new file, or
      nothing (the accepted window between removal and rename). */
  lemma SaveNeverExposesPartialFile(fs: FileSystem, name: string, data: Bytes, hash: Bytes -> uint32,
                                    opens: bool, removes: bool, renames: bool, i: nat)
    requires i < |SaveSteps(fs, name, data, hash, opens, removes, renames)|
    ensures var s := SaveSteps(fs, name, data, hash, opens, removes, renames)[i];
      || Unchanged(fs.files, s.files, DataPath(name))
      || DataPath(name) !in s.files
      || (DataPath(name) in s.files && s.files[DataPath(name)] == StoredFile(data, hash))
  {
    StagingNeverCollides(name, name);
  }
}

=== FILE: types.dfy ===
/** Machine-level types shared by the record store and the autoresponder:
    32-bit unsigned integers with the C wrap-around made explicit, raw bytes,
    and an Option for values that may be absent. */
module Types {

  const TwoTo32: int := 0x1_0000_0000

  /** C's `uint32_t`. */
  type uint32 = x: int | 0 <= x < 0x1_0000_0000

  /** C's `uint8_t`. */
  type byte = x: int | 0 <= x < 0x100

  /** A region of raw memory or file content. */
  type Bytes = seq<byte>

  datatype Option<+T> = None | Some(value: T)

  /** `a - b` evaluated on two `uint32_t` operands: the difference modulo 2^32. */
  function Sub32(a: uint32, b: uint32): (r: uint32)
    ensures b <= a ==> r == a - b
    ensures a < b ==> r == a - b + TwoTo32
  {
    (a - b) % TwoTo32
  }

  /** `a * b` evaluated on `uint32_t` operands: the product truncated to 32 bits. */
  function Mul32(a: uint32, b: uint32): (r: uint32)
    ensures a * b < TwoTo32 ==> r == a * b
    ensures r == a * b - (a * b / TwoTo32) * TwoTo32
  {
    (a * b) % TwoTo32
  }

  /** `prev + d` on a free-running 32-bit millisecond counter. */
  function Advance(prev: uint32, d: uint32): uint32
  {
    (prev + d) % TwoTo32
  }

  /** Unsigned subtraction measures elapsed time correctly even when the
      clock wrapped between the two readings: this is why `now - prev > interval`
      is a wrap-safe test and `now > deadline` is not. */
  lemma ElapsedAcrossWrap(prev: uint32, d: uint32)
    ensures Sub32(Advance(prev, d), prev) == d
  {
    if prev + d >= TwoTo32 {
      assert Advance(prev, d) == prev + d - TwoTo32;
    }
  }
}
